=== FILE: README.md ===
# Mozambique Nature Voyage — a Dafny model of the front end's logic

The application is a React front end for community stories from
Mozambique. Users read a feed of stories, browse two photo galleries, see
stories on a map and share stories of their own. It is translated into
English, Portuguese, Makhuwa, Sena and Changana. This project models the
pure logic behind those screens and proves properties of it:

- `Translation` models the translation resolver `t`:
  - the fallback chain current locale → `pt` → `en` → key, using JavaScript truthiness;
  - `{name}` substitution with `String.prototype.replace`, which replaces the first occurrence only and gives `$` patterns their special meaning;
  - restoring the saved language, and `handleSetLanguage`.
- `StoryCard` models the community story card: badge colour, translated label, location line and author line.
- `Feed` models the feed:
  - sample stories versus real stories;
  - mapping a backend story to a card;
  - the card's own colours and English labels, avatar initial and subtitle.
- `PhotoGallery` and `CommunityGallery` model category filtering and the counts shown on the category buttons.
- `StoryMap` models the markers of the interactive map and the statistics of the map page.
- `CommunityMap` models converting a community story into a backend story for the map.
- `Stories` models the query function of `useStories`:
  - the ordered, de-duplicated id lists;
  - the batch lookups;
  - the last-one-wins lookup maps;
  - the join of profiles and communities onto the story rows.
- `ShareStory` models:
  - the `zod` schema of the share form;
  - the storage paths of uploaded files;
  - the record handed to `createStory`.

Helper modules:

- `Wrappers` holds `Option` and `Result`.
- `Seqs` holds `filter`, `map`, first-occurrence de-duplication and last-one-wins maps.
- `Text` holds truthiness, `indexOf`, `replace` and decimal numerals.
- `Geo` holds a position.
- `Categories` holds the eight story categories.

Modelling choices:

- Backend answers, the signed-in user, `localStorage` values, `Date.now()` and the storage upload are parameters of the functions. Nothing here performs I/O.
- `null` and `undefined` are `None`.
- A `Record<string, string>` of parameters is a sequence of pairs in `Object.keys` order.
- The translation catalog is a representative part of the application's: 15 keys in all five languages, with the application's own strings. The lemmas that need its contents are stated for that part.

## Model

| member | source | states |
|---|---|---|
| Translation.ParseLanguage | src/contexts/LanguageContext.tsx:4 | Exactly the five codes `en`, `pt`, `makhuwa`, `sena`, `changana` name a language. Parsing a code gives back its language, and any other string gives none. |
| Translation.Template | src/contexts/LanguageContext.tsx:373 | The current locale's entry is used when it is present and non-empty. Otherwise the Portuguese entry is used, then the English one, and then the key itself. A non-empty key never resolves to an empty string. |
| Translation.TemplateIsChain | src/contexts/LanguageContext.tsx:373 | The `\|\|` chain agrees with a reference reading: the first table in the order current, `pt`, `en` that defines the key wins, and the key is the last resort. |
| Translation.FirstDefined | src/contexts/LanguageContext.tsx:373 | The reference reading gives either the key or the entry of some table in the chain that defines it. |
| Translation.Translate | src/contexts/LanguageContext.tsx:372-382 | Without parameters, or with an empty parameter object, `t` returns the resolved template unchanged. |
| Translation.Interpolate | src/contexts/LanguageContext.tsx:375-379 | With no parameters the template is returned as it is. |
| Translation.InterpolateConcat | src/contexts/LanguageContext.tsx:375-379 | The parameters act one after the other on the running string, so interpolating with `p` followed by `q` is interpolating with `p` and then with `q`. |
| Translation.InterpolateWhole | src/contexts/LanguageContext.tsx:377 | A template that is just `{name}` becomes the value, when the value has no `$`. |
| Translation.InterpolateNoTokens | src/contexts/LanguageContext.tsx:375-379 | Parameters whose `{name}` does not occur leave the template unchanged, so missing or extra parameters raise no error. |
| Translation.InterpolateOne | src/contexts/LanguageContext.tsx:377 | A parameter replaces the first `{name}` with its value. Everything before and after it is kept, including later copies of `{name}`. |
| Translation.OnlyFirstOccurrence | src/contexts/LanguageContext.tsx:377 | `{x} and {x}` with `x = A` gives `A and {x}`: only the first placeholder is replaced. |
| Translation.LaterParamRewritesEarlierValue | src/contexts/LanguageContext.tsx:376-377 | Each parameter rewrites the string produced so far. So a value `{b}` inserted for `a` is itself replaced by a later parameter `b`. |
| Translation.EarlierParamMissesLaterValue | src/contexts/LanguageContext.tsx:376-377 | With the parameters in the other order the `{b}` survives, so the key order of the parameter object matters. |
| Translation.DollarPatternInValue | src/contexts/LanguageContext.tsx:377 | A value `$&` is expanded by `replace` to the matched placeholder. `By {author}` therefore stays `By {author}`. |
| Translation.TranslateTrailingToken | src/contexts/LanguageContext.tsx:372-382 | An entry made of text followed by one placeholder yields that text followed by the parameter's value. This needs the text to have no `{` and the value to have no `$`. |
| Translation.ByAuthorEntry | src/contexts/LanguageContext.tsx:49 | In every language, `story.by_author` resolves to the language's word for "by" followed by `{author}`. |
| Translation.ByAuthor | src/contexts/LanguageContext.tsx:14-382 | `t('story.by_author', {author})` gives `By `, `Por `, `Wa `, `Ndi ` or `Hi ` followed by the author. |
| Translation.MissingKeyShowsItself | src/contexts/LanguageContext.tsx:373 | A key that no table defines resolves to itself in every language. |
| Translation.MissingKeyWithUnusedParams | src/contexts/LanguageContext.tsx:372-382 | A key that no table defines also resolves to itself with parameters whose placeholders do not occur in it. |
| Translation.Restore | src/contexts/LanguageContext.tsx:358-365 | A saved value equal to one of the five codes becomes the language. Anything else, including nothing saved or an empty string, leaves the default `pt`. |
| Translation.Start | src/contexts/LanguageContext.tsx:358-365 | The provider starts in the restored language and keeps the stored value. |
| Translation.SetLanguage | src/contexts/LanguageContext.tsx:367-370 | `handleSetLanguage(l)` makes `l` current and stores the code of `l`, so a later restore yields `l` again. |
| StoryCard.CategoryColor | src/components/CommunityStoryCard.tsx:30-42 | A category gets a colour other than the grey default exactly when it is one of the eight known categories. A known category gets its own entry. |
| StoryCard.CategoryColorsDistinct | src/components/CommunityStoryCard.tsx:31-40 | No two known categories share a badge colour. |
| StoryCard.CategoryLabel | src/components/CommunityStoryCard.tsx:44-46 | The label is the resolution of `category.<c>`, and it is never empty, so the `\|\| category` fallback is dead code. |
| StoryCard.UnknownCategoryLabel | src/components/CommunityStoryCard.tsx:44-46 | For any catalog, a category with no `category.<c>` entry is labelled `category.<c>`, never the bare category. |
| StoryCard.TraditionsLabelInPortuguese | src/components/CommunityStoryCard.tsx:45 | In Portuguese the `traditions` badge reads `Tradições`. |
| StoryCard.DailyLifeLabel | src/components/CommunityStoryCard.tsx:45 | `daily_life` is labelled `category.daily_life` in every language. |
| StoryCard.LocationLine | src/components/CommunityStoryCard.tsx:48-69 | The line is hidden exactly when community and province are both empty. With both present it is `community, province`. With one present it is that one. |
| StoryCard.AuthorLine | src/components/CommunityStoryCard.tsx:71-73 | The line is hidden exactly when the author is empty. Otherwise it is `t('story.by_author', {author})`. |
| StoryCard.AuthorLineInCatalog | src/components/CommunityStoryCard.tsx:71-73 | With the application's catalog, the author line is the language's word for "by" followed by the author. |
| Feed.View | src/pages/Feed.tsx:113-173 | Sample stories are shown exactly when there are no stories or the list is empty. Otherwise there is one card per story, in order. |
| Feed.ToCard | src/pages/Feed.tsx:156-167 | The card's community is the community name, else the location, else `Unknown`. The author is the profile name, else `Anonymous`. The image is the URL, else `/placeholder.svg`. The province is the province, else empty. The coordinates are `0,0`. Community, author and image are never empty. |
| Feed.CategoryColor | src/pages/Feed.tsx:188-200 | A category gets a non-default colour exactly when it is known, and then its own entry. |
| Feed.CategoryLabel | src/pages/Feed.tsx:202-214 | A known category gets its fixed English label. Any other category is shown as is. |
| Feed.KnownLabelsDiffer | src/pages/Feed.tsx:203-212 | A known category's label differs from its identifier. |
| Feed.UnknownLabelsDisagree | src/pages/Feed.tsx:213 | For `daily_life` the feed shows `daily_life` while the story card shows `category.daily_life`. |
| Feed.Initial | src/pages/Feed.tsx:224 | The avatar letter is the author's first character, a one-letter prefix of the name, or `A` for a missing or empty author. |
| Feed.CardInitial | src/pages/Feed.tsx:161-224 | A card built from a story always shows its author's first letter. A story without a profile name shows the `A` of `Anonymous`. |
| Feed.Subtitle | src/pages/Feed.tsx:230 | The subtitle starts with the community. `, province` is appended exactly when the province is non-empty. |
| Feed.CardAuthorIsMarkerAuthor | src/pages/Feed.tsx:161 | The feed credits a story to the same name as its map marker does. |
| Feed.SubtitleIsLocationLine | src/pages/Feed.tsx:230 | Whenever the community is non-empty, the feed subtitle is the story card's location line. |
| Feed.CardSubtitle | src/pages/Feed.tsx:159-230 | On a card built from a backend story, the subtitle and the story card's location line always agree. |
| Feed.BadgesAgree | src/pages/Feed.tsx:188-200 | The feed and the story card give the grey default badge to exactly the same categories. |
| Feed.LabelsAreEnglish | src/pages/Feed.tsx:202-214 | The feed's fixed label of a known category is the story card's English label for it. |
| Feed.EnglishEntry | src/contexts/LanguageContext.tsx:64-71 | The English table holds `category.<c>` for every known category, with the feed's label as its text. |
| Feed.ViewConcat | src/pages/Feed.tsx:153-173 | The cards of two story lists put together are the cards of the first followed by the cards of the second. |
| PhotoGallery.FilteredImages | src/components/PhotoGallery.tsx:139-158 | `all` shows the destinations and then the gallery. `destinations` shows the destinations only. Any other id shows the gallery images of that category, in order. |
| PhotoGallery.Buttons | src/components/PhotoGallery.tsx:129-137 | There are seven buttons: `all`, `destinations` and the five photo categories, in that order. |
| PhotoGallery.ButtonCountsMatch | src/components/PhotoGallery.tsx:129-158 | For any destinations and gallery, every button's count is the number of tiles shown when it is selected. |
| PhotoGallery.CategoriesPartition | src/components/PhotoGallery.tsx:132-136 | In a gallery whose images all carry one of the five categories, the five category counts add up to its size. |
| PhotoGallery.AllCountIsSum | src/components/PhotoGallery.tsx:130-136 | For such a gallery the `all` count is the sum of the other six counts. |
| PhotoGallery.GalleryImagesCategorised | src/components/PhotoGallery.tsx:30-127 | Every built-in gallery image carries one of the five photo categories. |
| CommunityGallery.StoryItems | src/components/CommunityGallery.tsx:99-105 | A story becomes a tile with its image, title, category, community and author, one tile per story. |
| CommunityGallery.FilteredImages | src/components/CommunityGallery.tsx:94-124 | `all` shows every story tile and then every photo. Any other id shows that category's story tiles and then its photos, and every tile shown has that category. |
| CommunityGallery.Buttons | src/components/CommunityGallery.tsx:83-92 | There are eight buttons, from `all` to `daily_life`, in the source's order. The `daily_life` count is over the built-in photos alone. |
| CommunityGallery.ButtonCountsMatch | src/components/CommunityGallery.tsx:84-124 | For any stories and photos, the `all` button and the six buttons before `daily_life` count exactly the tiles their selection shows. |
| CommunityGallery.DailyLifeCount | src/components/CommunityGallery.tsx:91-120 | The `daily_life` count never exceeds the tiles shown. It equals them exactly when no story has category `daily_life`. |
| CommunityGallery.CorrectedButtons | src/components/CommunityGallery.tsx:83-92 | The same buttons, with `daily_life` counted over stories and photos like the others. |
| CommunityGallery.CorrectedButtonCountsMatch | src/components/CommunityGallery.tsx:83-124 | With the correction, every one of the eight counts equals the number of tiles its selection shows. |
| StoryMap.MarkerPosition | src/components/InteractiveMap.tsx:38-53 | Stored coordinates win. Otherwise a listed province gives its fixed position, and anything else gives the center. |
| StoryMap.MarkerAuthor | src/components/InteractiveMap.tsx:60 | The marker is signed with the profile's full name when there is a profile whose name is present and non-empty. In every other case it is signed `Anonymous`. |
| StoryMap.MarkerOf | src/components/InteractiveMap.tsx:55-62 | A marker carries the story's id, title, description and category, with the position and author above. |
| StoryMap.Markers | src/components/InteractiveMap.tsx:34-63 | There is one marker per story that has coordinates, or both a province and a location, in the order of the stories. Other stories get none. |
| StoryMap.MarkersSkipUnlocated | src/components/InteractiveMap.tsx:35 | When every story is located, each story gets exactly one marker. |
| StoryMap.MarkersConcat | src/components/InteractiveMap.tsx:34-35 | Markers of concatenated lists add up. |
| StoryMap.SourceStories | src/components/InteractiveMap.tsx:31 | The stories passed in win over the fetched ones. With neither, the map has no stories. |
| StoryMap.MapMarkers | src/components/InteractiveMap.tsx:27-63 | The markers are those of the chosen stories placed against the given center, or against the center of Mozambique when none is given. There are never more markers than stories. |
| StoryMap.StoriesWithLocation | src/pages/MapPage.tsx:38-40 | The "with location" stories are exactly the stories that pass the map's filter, and none when there are no stories. |
| StoryMap.TotalShown | src/pages/MapPage.tsx:79 | The total is the number of stories, and zero when there are none. |
| StoryMap.LocatedAtMostTotal | src/pages/MapPage.tsx:38-79 | The "with location" statistic never exceeds the total. |
| StoryMap.LocatedCountIsMarkerCount | src/pages/MapPage.tsx:38-75 | The "with location" statistic equals the number of markers the page's map draws. |
| CommunityMap.ToStory | src/components/CommunityMap.tsx:29-50 | The id is `id.toString()`: the integer in plain decimal, with no leading zero, and it reads back as the numeric id. The user and community ids, audio and coordinates are empty, and the language is `pt`. Location, province, image, dates, author and community are taken from the community story. |
| CommunityMap.MappedStories | src/components/CommunityMap.tsx:29 | Each community story is converted, one to one and in order. |
| CommunityMap.ConvertedHasLocation | src/components/CommunityMap.tsx:39-41 | A converted story is on the map exactly when its community and province are both non-empty. |
| CommunityMap.ConvertedMarker | src/components/CommunityMap.tsx:29-50 | A converted story's marker sits at its province's position or at the center. It is signed by the author, or `Anonymous` when the author is empty, and its id reads back as the numeric id. |
| CommunityMap.MarkerCount | src/components/CommunityMap.tsx:29-50 | The community map draws exactly as many markers as there are stories with both a community and a province. |
| Stories.TruthyIds | src/hooks/useStories.ts:36-37 | `.filter(Boolean)` keeps exactly the present, non-empty ids. |
| Stories.TruthyIdsOrder | src/hooks/useStories.ts:36-37 | The filter preserves the order of first occurrences. |
| Stories.UniqueIds | src/hooks/useStories.ts:36-37 | `[...new Set(...)]` has no duplicates and keeps exactly the truthy ids. |
| Stories.UniqueIdsOrder | src/hooks/useStories.ts:36-37 | The de-duplicated ids come in the order of their first occurrence. |
| Stories.UserIds | src/hooks/useStories.ts:36 | The user ids to look up are distinct, and they are exactly the non-empty `user_id`s of the rows. |
| Stories.CommunityIds | src/hooks/useStories.ts:37 | The community ids to look up are distinct, and they are exactly the present, non-empty `community_id`s. |
| Stories.Lookups | src/hooks/useStories.ts:29-60 | No lookup is issued for an error or an empty answer. The profile lookup is issued exactly when some user id is present, the community lookup exactly when some community id is present, and no other lookup is issued. There are at most two, the profile lookup first, and none has an empty id list. |
| Stories.Attach | src/hooks/useStories.ts:70-74 | A story gets the profile stored under its `user_id`, if any. It gets a community only when its `community_id` is truthy and stored. The row is unchanged. |
| Stories.Join | src/hooks/useStories.ts:70-76 | The join keeps the number and order of the rows and every row's fields. |
| Stories.LoadStories | src/hooks/useStories.ts:24-76 | A stories error is raised. A missing or empty answer gives `[]`. Otherwise the result is the join of the rows with the profile and community answers, one story per row, in order. |
| Stories.ProfilesMapEntries | src/hooks/useStories.ts:40-52 | The profile map's keys are the ids of the fetched rows, and the last row with an id wins. |
| Stories.CommunitiesMapEntries | src/hooks/useStories.ts:55-67 | The community map's keys are the ids of the fetched rows, and the last row with an id wins. |
| Stories.ProfileAttached | src/hooks/useStories.ts:40-72 | A story with a user id gets the last fetched profile with that id, and `null` when none was fetched. |
| Stories.CommunityAttached | src/hooks/useStories.ts:55-73 | A story with a falsy community id gets `null`. Otherwise it gets the last fetched community with that id, and `null` when no fetched community has it. |
| Stories.NoProfileData | src/hooks/useStories.ts:47-72 | Without profile data every story's `profiles` is `null`. |
| Stories.LookupAnswersIgnored | src/hooks/useStories.ts:41-67 | The lookup answers matter only when a lookup is issued, and their errors never matter. |
| ShareStory.MinLength | src/pages/ShareStory.tsx:19-21 | A field passes exactly when it is present and at least `n` characters long. A short value gets the schema's message, and a missing one gets `Required`. |
| ShareStory.Validate | src/pages/ShareStory.tsx:18-25 | The form is accepted exactly when the title has at least 1 character, the description at least 10 and the category at least 1. On rejection, each failing field, and only such a field, has an issue. Accepted data keeps the values, and a missing language becomes `pt`. |
| ShareStory.BlankTitleAccepted | src/pages/ShareStory.tsx:19 | Nothing is trimmed, so a title of one space is accepted. |
| ShareStory.ShortDescriptionRejected | src/pages/ShareStory.tsx:20 | A nine-character description is rejected with exactly the description message. |
| ShareStory.UploadPath | src/pages/ShareStory.tsx:88-94 | The path is prefix, `/`, user id, `/`, timestamp, `-`, file name, in that order. The digits between are the timestamp in plain decimal, with no leading zero. |
| ShareStory.ImagePath | src/pages/ShareStory.tsx:88 | Images are stored under `images/<user id>/`. |
| ShareStory.AudioPath | src/pages/ShareStory.tsx:94 | Audio files are stored under `audio/<user id>/`. |
| ShareStory.ImageAndAudioPathsDiffer | src/pages/ShareStory.tsx:88-94 | An image path never equals an audio path. |
| ShareStory.PathsDifferByTime | src/pages/ShareStory.tsx:88-94 | The same file uploaded by the same user at two different times gets two different paths. |
| ShareStory.Submit | src/pages/ShareStory.tsx:79-110 | Without a user nothing happens. A failed upload stops the submission at that file. Otherwise the record is the form data with the user's id, and each URL is absent exactly when no file of that kind was chosen. |
| ShareStory.SubmitReachesInsert | src/pages/ShareStory.tsx:87-104 | A failed image upload stops before the audio is sent. When every upload succeeds, a signed-in user always reaches `createStory`. |
| Text.IndexOf | src/contexts/LanguageContext.tsx:377 | `indexOf` finds the first occurrence of the pattern, and finds none only when there is none. |
| Text.ReplaceFirst | src/contexts/LanguageContext.tsx:377 | Without an occurrence the string is unchanged. Otherwise the first occurrence is replaced, and the replacement is taken literally when it has no `$`. |
| Text.Expand | src/contexts/LanguageContext.tsx:377 | A replacement without `$` is inserted literally. |
| Text.ExpandEscaped | src/contexts/LanguageContext.tsx:377 | A value whose every `$` is doubled is inserted exactly as the original value, whatever was matched. |
| Text.ExpandBefore | src/contexts/LanguageContext.tsx:377 | ``$` `` in a value is replaced by the text before the placeholder. |
| Text.ExpandAfter | src/contexts/LanguageContext.tsx:377 | `$'` in a value is replaced by the text after the placeholder. |
| Text.ExpandLoneDollar | src/contexts/LanguageContext.tsx:377 | A `$` followed by any character other than `$`, `&`, `` ` `` or `'` is kept literally. |
| Text.IntToString | src/components/CommunityMap.tsx:30 | The string is a `-` exactly for a negative number, followed by decimal digits that start with `0` only for zero itself. |
| Text.IntToStringRoundTrip | src/components/CommunityMap.tsx:30 | `id.toString()` reads back as the same integer, so distinct ids give distinct strings. |
| Seqs.Dedup | src/hooks/useStories.ts:36-37 | The result has no duplicates and holds exactly the elements of the input. |
| Seqs.DedupFirstOccurrenceOrder | src/hooks/useStories.ts:36-37 | The result lists the elements in the order of their first occurrence. |
| Seqs.LastWins | src/hooks/useStories.ts:48-65 | The map has exactly the keys of the pairs, and the last pair with a key wins. |
| Seqs.Filter | src/pages/MapPage.tsx:38-40 | The result holds exactly the elements that pass, and only those, and is no longer than the input. |
| Seqs.FilterIndices | src/pages/MapPage.tsx:38-40 | The result reads the input at strictly increasing positions, and those are exactly the positions whose element passes, so the filter keeps the input order. |

## Left out

- Rendering: the JSX, Leaflet maps and popups, icons, toasts, navigation and file previews are not modelled, nor are the `onLike`, `onConnect` and `onViewOnMap` callbacks.
- I/O: the Supabase queries, inserts and storage uploads, `localStorage`, `Date.now()` and the signed-in user are inputs to the model rather than effects. `useCreateStory` and `useUploadFile` are reduced to "the record handed over" and "the URL or a failure".
- `ShareStory.Submit` does not model a failure of `createStory` itself, nor the navigation to `/feed` after it. The code swallows every error in `catch` and logs it.
- `onSubmit` awaits the image upload before starting the audio upload. The model captures that order only through the image failure stopping first.
- The catalog holds 15 of the application's 53 keys in each language. Keys used only by other screens are not part of this model. The fallback and interpolation lemmas are stated for any catalog.
- JavaScript object prototype keys such as `constructor` are not modelled. Looking one up in the real `translations` object finds an inherited function rather than nothing.
- String lengths are counted in characters, not in UTF-16 code units as `zod` and JavaScript count them.
- Feed.Initial: the avatar letter is the author's first character. `charAt(0)` gives the first UTF-16 code unit, so for a name that starts outside the Basic Multilingual Plane the application shows a lone high surrogate where the model has the whole character.
- Feed card ids: each card is keyed by the story's own `id` string. The value `parseInt(story.id)` goes into the `story` prop of `InstagramStoryCard`, which never reads it, so the feed card omits it.
- The text of the feed's sample stories is not modelled, nor is `useCommunities`.
- No page of the application renders `CommunityGallery` or `CommunityMap`: the routes in `src/App.tsx` lead to pages that import neither, and the community detail page shows only `CommunityStoryCard`. The two components are modelled on their own, with their stories as parameters. This is also why the `daily_life` count finding below cannot yet be seen in the running application.
- `handleSetLanguage` takes a typed `Language`, so only the startup restore has to cope with an arbitrary stored string.
- Where the code and a plain description of `t` differ, the model follows the code. A reading of `t` in which every occurrence of `{name}` is replaced is not what `String.prototype.replace` with a string pattern does. The code replaces only the first occurrence, and `$&`, `$$`, `` $` `` and `$'` in a value are expanded (`Translation.OnlyFirstOccurrence`, `Translation.DollarPatternInValue`).
- Translation.ByAuthor: stated for author names without `$`, because a `$` pattern in the name would be expanded by `replace`.
- StoryCard.AuthorLineInCatalog: stated for author names without `$`, for the same reason.
- CommunityMap.ToStory: the community story's numeric id is an integer in the model. JavaScript prints numbers of 1e21 and above in exponent form and non-integers with a fraction, and the read-back is not promised for those.
- Text.IntToStringRoundTrip: models `toString` of an integer below 1e21 in magnitude, written as plain decimal digits. Larger numbers and non-integers are left out for the same reason.

## Findings

| source | as written | input that shows it | evidently intended | confidence | as-written member | corrected member |
|---|---|---|---|---|---|---|
| src/components/CommunityGallery.tsx:91 | The `daily_life` button counts only the built-in photos. Every other category button counts stories and photos together, and selecting `daily_life` shows story tiles too. | One story whose category is `daily_life`, with the built-in photos: the button says 2 and 3 tiles are shown. | Count `daily_life` over stories and photos like the other categories. | medium; not executed | CommunityGallery.DailyLifeCount | CommunityGallery.CorrectedButtonCountsMatch |

=== FILE: categories.dfy ===
/** The story categories a user can choose when sharing a story
    (`categories` in `src/pages/ShareStory.tsx`); the badge colours and
    labels of the cards are defined for exactly these. */
module Categories {

  const Known: seq<string> :=
    ["traditions", "crafts", "music", "agriculture", "celebrations",
     "traditional_dances", "elder_wisdom", "traditional_clothes"]
}

=== FILE: communitygallery.dfy ===
/** The community gallery of `src/components/CommunityGallery.tsx`: story
    images and the built-in community photos, filtered by category, with a
    count on each category button. */
module CommunityGallery {
  import Seqs
  import StoryCard

  /** A gallery tile. */
  datatype Item = Item(url: string, title: string, category: string, community: string, author: string)

  /** A filter button. */
  datatype Button = Button(id: string, name: string, count: nat)

  /** `communityPhotos`: the built-in photos. */
  const CommunityPhotos: seq<Item> := [
    Item("https://images.unsplash.com/photo-1578662996442-48f60103fc96?w=800&h=600&fit=crop", "Village Life", "daily_life", "Zambézia Village", "Local Community"),
    Item("https://images.unsplash.com/photo-1493962853295-0fd70327578a?w=800&h=600&fit=crop", "Traditional Farming", "agriculture", "Inhambane Province", "Farmers Collective"),
    Item("https://images.unsplash.com/photo-1466721591366-2d5fba72006d?w=800&h=600&fit=crop", "Wildlife Conservation", "traditions", "Niassa Reserve", "Conservation Group"),
    Item("https://images.unsplash.com/photo-1547036967-23d11aacaee0?w=800&h=600&fit=crop", "Sacred Landscapes", "elder_wisdom", "Gorongosa", "Elders Council"),
    Item("https://images.unsplash.com/photo-1504609813442-a8924e83f76e?w=800&h=600&fit=crop", "Festival Dancing", "traditional_dances", "Pemba", "Cultural Group"),
    Item("https://images.unsplash.com/photo-1472396961693-142e6e269027?w=800&h=600&fit=crop", "Elder Teaching", "elder_wisdom", "Chimoio", "Community Elders"),
    Item("https://images.unsplash.com/photo-1469041797191-50ace28483c3?w=800&h=600&fit=crop", "Traditional Transport", "daily_life", "Tete Province", "Rural Community")
  ]

  /** The category ids of the buttons after `all` whose counts take stories
      and photos together. */
  const SharedCategories: seq<string> :=
    ["traditions", "traditional_dances", "traditional_clothes", "elder_wisdom", "languages", "agriculture"]

  /** A story as a tile: image, title, category, community and author are
      copied. */
  function StoryItem(s: StoryCard.CommunityStory): (r: Item)
    ensures r.url == s.image && r.title == s.title && r.category == s.category
    ensures r.community == s.community && r.author == s.author
  {
    Item(s.image, s.title, s.category, s.community, s.author)
  }

  function StoryItems(stories: seq<StoryCard.CommunityStory>): (r: seq<Item>)
    ensures |r| == |stories|
    ensures forall i :: 0 <= i < |r| ==> r[i] == StoryItem(stories[i])
  {
    Seqs.Map(StoryItem, stories)
  }

  /** The tiles of one category, in order. */
  function OfCategory(items: seq<Item>, category: string): (r: seq<Item>)
    ensures forall i :: 0 <= i < |r| ==> r[i].category == category
    ensures forall x :: x in r <==> x in items && x.category == category
  {
    Seqs.Filter(items, (it: Item) => it.category == category)
  }

  /** The stories of one category, in order. */
  function StoriesOfCategory(stories: seq<StoryCard.CommunityStory>, category: string): seq<StoryCard.CommunityStory> {
    Seqs.Filter(stories, (s: StoryCard.CommunityStory) => s.category == category)
  }

  /** `getFilteredImages`: for `all` every story tile then every photo; for
      any other id the story tiles of that category, then the photos of it. */
  function FilteredImages(stories: seq<StoryCard.CommunityStory>, photos: seq<Item>, selected: string): (r: seq<Item>)
    ensures selected == "all" ==> r == StoryItems(stories) + photos
    ensures selected != "all" ==> r == OfCategory(StoryItems(stories), selected) + OfCategory(photos, selected)
    ensures selected != "all" ==> forall i :: 0 <= i < |r| ==> r[i].category == selected
  {
    if selected == "all" then StoryItems(stories) + photos
    else
      Seqs.FilterMap(StoryItem, stories, (it: Item) => it.category == selected,
                     (s: StoryCard.CommunityStory) => s.category == selected);
      StoryItems(StoriesOfCategory(stories, selected)) + OfCategory(photos, selected)
  }

  /** `categories`, as written: the `daily_life` button counts photos only. */
  function Buttons(stories: seq<StoryCard.CommunityStory>, photos: seq<Item>): (r: seq<Button>)
    ensures |r| == 8 && r[0].id == "all" && r[7].id == "daily_life"
    ensures forall i :: 1 <= i < 7 ==> r[i].id == SharedCategories[i - 1]
    ensures r[7].count == |OfCategory(photos, "daily_life")|
  {
    var all := StoryItems(stories) + photos;
    [ Button("all", "All Photos", |stories| + |photos|),
      Button("traditions", "Traditions", |OfCategory(all, "traditions")|),
      Button("traditional_dances", "Traditional Dances", |OfCategory(all, "traditional_dances")|),
      Button("traditional_clothes", "Traditional Clothes", |OfCategory(all, "traditional_clothes")|),
      Button("elder_wisdom", "Elder Wisdom", |OfCategory(all, "elder_wisdom")|),
      Button("languages", "Languages", |OfCategory(all, "languages")|),
      Button("agriculture", "Agriculture", |OfCategory(all, "agriculture")|),
      Button("daily_life", "Daily Life", |OfCategory(photos, "daily_life")|) ]
  }

  /** The count of a category over stories and photos together is the
      number of tiles shown for it. */
  lemma SharedCountMatches(stories: seq<StoryCard.CommunityStory>, photos: seq<Item>, c: string)
    requires c != "all"
    ensures |OfCategory(StoryItems(stories) + photos, c)| == |FilteredImages(stories, photos, c)|
  {
    Seqs.FilterConcat(StoryItems(stories), photos, (it: Item) => it.category == c);
  }

  /** The `all` button and the six shared-category buttons show exactly the
      number of tiles their selection displays. */
  lemma ButtonCountsMatch(stories: seq<StoryCard.CommunityStory>, photos: seq<Item>)
    ensures var bs := Buttons(stories, photos);
            forall i :: 0 <= i < 7 ==> bs[i].count == |FilteredImages(stories, photos, bs[i].id)|
  {
    var bs := Buttons(stories, photos);
    forall i | 1 <= i < 7
      ensures bs[i].count == |FilteredImages(stories, photos, bs[i].id)|
    {
      var c := bs[i].id;
      assert c == SharedCategories[i - 1] && c != "all";
      assert bs[i].count == |OfCategory(StoryItems(stories) + photos, c)|;
      SharedCountMatches(stories, photos, c);
    }
  }

  /** No story is in the `daily_life` category. */
  predicate NoDailyLifeStory(stories: seq<StoryCard.CommunityStory>) {
    forall i :: 0 <= i < |stories| ==> stories[i].category != "daily_life"
  }

  /** The `daily_life` count equals the number of tiles shown exactly when no
      story has that category; otherwise it is smaller. */
  lemma DailyLifeCount(stories: seq<StoryCard.CommunityStory>, photos: seq<Item>)
    ensures Buttons(stories, photos)[7].count <= |FilteredImages(stories, photos, "daily_life")|
    ensures Buttons(stories, photos)[7].count == |FilteredImages(stories, photos, "daily_life")|
        <==> NoDailyLifeStory(stories)
  {
    var tiles := OfCategory(StoryItems(stories), "daily_life");
    if !NoDailyLifeStory(stories) {
      var i :| 0 <= i < |stories| && stories[i].category == "daily_life";
      assert StoryItems(stories)[i] in tiles;
    }
  }

  /** `categories` with the `daily_life` button counting stories and photos
      like every other category button. */
  function CorrectedButtons(stories: seq<StoryCard.CommunityStory>, photos: seq<Item>): (r: seq<Button>)
    ensures |r| == 8 && r[..7] == Buttons(stories, photos)[..7]
    ensures r[7].id == "daily_life"
  {
    var all := StoryItems(stories) + photos;
    Buttons(stories, photos)[..7] + [Button("daily_life", "Daily Life", |OfCategory(all, "daily_life")|)]
  }

  /** With the correction every button's count is the number of tiles its
      selection shows, for all stories. */
  lemma CorrectedButtonCountsMatch(stories: seq<StoryCard.CommunityStory>, photos: seq<Item>)
    ensures var bs := CorrectedButtons(stories, photos);
            forall i :: 0 <= i < |bs| ==> bs[i].count == |FilteredImages(stories, photos, bs[i].id)|
  {
    ButtonCountsMatch(stories, photos);
    SharedCountMatches(stories, photos, "daily_life");
  }
}

=== FILE: communitymap.dfy ===
/** `mappedStories` of `src/components/CommunityMap.tsx`: a community story
    is converted to a backend-shaped story so that the interactive map can
    draw it. */
module CommunityMap {
  import opened Wrappers
  import Seqs
  import Text
  import Geo
  import Stories
  import StoryCard
  import StoryMap

  /** One conversion. The id is the decimal form of the number; there are no
      coordinates, no community id, no audio, no user. */
  function ToStory(c: StoryCard.CommunityStory): (s: Stories.Story)
    ensures s.row.id == Text.IntToString(c.id)
    ensures Text.ParseInt(s.row.id) == Some(c.id)
    ensures s.row.coordinates == None && s.row.communityId == None && s.row.audioUrl == None
    ensures s.row.userId == "" && s.row.language == "pt"
    ensures s.row.location == Some(c.community) && s.row.province == Some(c.province)
    ensures s.row.imageUrl == Some(c.image)
    ensures s.row.createdAt == c.date && s.row.updatedAt == c.date
    ensures s.row.title == c.title && s.row.description == c.description && s.row.category == c.category
    ensures s.profiles == Some(Stories.Profile(Some(c.author)))
    ensures s.communities == Some(Stories.Community(c.community))
  {
    Text.IntToStringRoundTrip(c.id);
    Stories.Story(
      Stories.StoryRow(
        id := Text.IntToString(c.id),
        userId := "",
        communityId := None,
        title := c.title,
        description := c.description,
        category := c.category,
        language := "pt",
        imageUrl := Some(c.image),
        audioUrl := None,
        location := Some(c.community),
        province := Some(c.province),
        coordinates := None,
        createdAt := c.date,
        updatedAt := c.date),
      Some(Stories.Profile(Some(c.author))),
      Some(Stories.Community(c.community)))
  }

  /** `mappedStories`: same length and order. */
  function MappedStories(stories: seq<StoryCard.CommunityStory>): (r: seq<Stories.Story>)
    ensures |r| == |stories|
    ensures forall i :: 0 <= i < |stories| ==> r[i] == ToStory(stories[i])
  {
    Seqs.Map(ToStory, stories)
  }

  /** Converted stories carry no coordinates, so one is drawn exactly when
      both its community and its province are non-empty. */
  lemma ConvertedHasLocation(c: StoryCard.CommunityStory)
    ensures StoryMap.HasLocation(ToStory(c)) <==> c.community != "" && c.province != ""
  {
  }

  /** The marker of a converted story sits at its province's entry, or at
      the center for an unlisted province, and is signed by the author. */
  lemma ConvertedMarker(c: StoryCard.CommunityStory, center: Geo.Position)
    ensures var m := StoryMap.MarkerOf(ToStory(c), center);
            && m.position == (if c.province in StoryMap.ProvinceCoords then StoryMap.ProvinceCoords[c.province] else center)
            && m.author == (if c.author != "" then c.author else "Anonymous")
            && Text.ParseInt(m.id) == Some(c.id)
  {
  }

  /** The community map draws one marker per story whose community and
      province are both non-empty. */
  lemma {:induction false} MarkerCount(stories: seq<StoryCard.CommunityStory>, center: Geo.Position)
    ensures |StoryMap.Markers(MappedStories(stories), center)|
         == |Seqs.Filter(stories, (c: StoryCard.CommunityStory) => c.community != "" && c.province != "")|
  {
    if stories != [] {
      var mapped := MappedStories(stories);
      assert mapped == [ToStory(stories[0])] + MappedStories(stories[1..]);
      StoryMap.MarkersConcat([ToStory(stories[0])], MappedStories(stories[1..]), center);
      ConvertedHasLocation(stories[0]);
      MarkerCount(stories[1..], center);
    }
  }
}

=== FILE: feed.dfy ===
/** The feed page of `src/pages/Feed.tsx`: whether the built-in sample
    stories are shown, how a backend story becomes a card, and the card's
    badge, avatar initial and subtitle. */
module Feed {
  import opened Wrappers
  import Seqs
  import Text
  import Geo
  import Categories
  import Stories
  import Translation
  import StoryCard
  import StoryMap

  /** The card record built for a backend story (the numeric `id`, obtained
      with `parseInt` on the story's UUID, is not part of the model). */
  datatype FeedCard = FeedCard(
    title: string,
    community: string,
    province: string,
    author: string,
    description: string,
    image: string,
    category: string,
    date: string,
    coordinates: Geo.Position)

  /** What the feed shows once loading has finished without error. */
  datatype FeedView = SampleStories | StoryCards(cards: seq<FeedCard>)

  /** The name of the story's community, if it has one. */
  function CommunityName(s: Stories.Story): Option<string> {
    if s.communities.Some? then Some(s.communities.value.name) else None
  }

  /** The name on the story's profile, if any. */
  function ProfileName(s: Stories.Story): Option<string> {
    if s.profiles.Some? then s.profiles.value.fullName else None
  }

  /** The card of a backend story. Every shown text has a non-empty default:
      the community falls back to the location and then to `Unknown`, the
      author to `Anonymous`, the image to the placeholder. */
  function ToCard(s: Stories.Story): (c: FeedCard)
    ensures c.community != "" && c.author != "" && c.image != ""
    ensures Text.Truthy(CommunityName(s)) ==> c.community == CommunityName(s).value
    ensures !Text.Truthy(CommunityName(s)) && Text.Truthy(s.row.location) ==> c.community == s.row.location.value
    ensures !Text.Truthy(CommunityName(s)) && !Text.Truthy(s.row.location) ==> c.community == "Unknown"
    ensures c.author == "Anonymous" || ProfileName(s) == Some(c.author)
    ensures Text.Truthy(ProfileName(s)) ==> c.author == ProfileName(s).value
    ensures !Text.Truthy(ProfileName(s)) ==> c.author == "Anonymous"
    ensures Text.Truthy(s.row.imageUrl) ==> c.image == s.row.imageUrl.value
    ensures !Text.Truthy(s.row.imageUrl) ==> c.image == "/placeholder.svg"
    ensures Text.Truthy(s.row.province) ==> c.province == s.row.province.value
    ensures !Text.Truthy(s.row.province) ==> c.province == ""
    ensures c.coordinates == Geo.Position(0.0, 0.0)
    ensures c.title == s.row.title && c.description == s.row.description
    ensures c.category == s.row.category && c.date == s.row.createdAt
  {
    FeedCard(
      s.row.title,
      Text.Or(CommunityName(s), Text.Or(s.row.location, "Unknown")),
      Text.Or(s.row.province, ""),
      Text.Or(ProfileName(s), "Anonymous"),
      s.row.description,
      Text.Or(s.row.imageUrl, "/placeholder.svg"),
      s.row.category,
      s.row.createdAt,
      Geo.Position(0.0, 0.0))
  }

  /** `showSampleStories`: the fetched list is absent or empty. */
  predicate ShowSampleStories(stories: Option<seq<Stories.Story>>) {
    stories.None? || |stories.value| == 0
  }

  /** The feed: the samples when there is nothing fetched, otherwise one
      card per fetched story, in order. */
  function View(stories: Option<seq<Stories.Story>>): (v: FeedView)
    ensures v.SampleStories? <==> stories.None? || stories == Some([])
    ensures v.StoryCards? ==> |v.cards| == |stories.value| > 0
    ensures v.StoryCards? ==> forall i :: 0 <= i < |v.cards| ==> v.cards[i] == ToCard(stories.value[i])
  {
    if ShowSampleStories(stories) then SampleStories
    else StoryCards(Seqs.Map(ToCard, stories.value))
  }

  /** Badge classes of the known categories on the feed. */
  const Colors: map<string, string> := map[
    "traditions" := "bg-orange-100 text-orange-700 border-orange-200",
    "crafts" := "bg-purple-100 text-purple-700 border-purple-200",
    "music" := "bg-blue-100 text-blue-700 border-blue-200",
    "agriculture" := "bg-green-100 text-green-700 border-green-200",
    "celebrations" := "bg-pink-100 text-pink-700 border-pink-200",
    "traditional_dances" := "bg-red-100 text-red-700 border-red-200",
    "elder_wisdom" := "bg-amber-100 text-amber-700 border-amber-200",
    "traditional_clothes" := "bg-violet-100 text-violet-700 border-violet-200"
  ]

  const DefaultColor := "bg-gray-100 text-gray-700 border-gray-200"

  /** English labels of the known categories. */
  const Labels: map<string, string> := map[
    "traditions" := "Traditions",
    "crafts" := "Crafts",
    "music" := "Music",
    "agriculture" := "Agriculture",
    "celebrations" := "Celebrations",
    "traditional_dances" := "Traditional Dances",
    "elder_wisdom" := "Elder Wisdom",
    "traditional_clothes" := "Traditional Clothes"
  ]

  /** The feed card's `getCategoryColor`. */
  function CategoryColor(category: string): (r: string)
    ensures category in Categories.Known <==> r != DefaultColor
    ensures category in Categories.Known ==> r == Colors[category]
  {
    if category in Colors then Colors[category] else DefaultColor
  }

  /** The feed card's `getCategoryLabel`: the English label, or the category
      itself. */
  function CategoryLabel(category: string): (r: string)
    ensures category in Categories.Known ==> r == Labels[category]
    ensures category !in Categories.Known ==> r == category
  {
    if category in Labels then Labels[category] else category
  }

  /** Known categories are never shown under their raw id on the feed. */
  lemma KnownLabelsDiffer(category: string)
    requires category in Categories.Known
    ensures CategoryLabel(category) != category
  {
  }

  /** The feed and the story card label an unknown category differently:
      the feed shows the bare category, the card its catalog key. */
  lemma UnknownLabelsDisagree(lang: Translation.Language)
    ensures CategoryLabel("daily_life") == "daily_life"
    ensures StoryCard.CategoryLabel(Translation.Translations, lang, "daily_life") == "category.daily_life"
  {
    StoryCard.DailyLifeLabel(lang);
  }

  /** The avatar letter: `author?.charAt(0) || 'A'`. */
  function Initial(author: Option<string>): (r: string)
    ensures |r| == 1
    ensures Text.Truthy(author) ==> r[0] == author.value[0] && r <= author.value
    ensures !Text.Truthy(author) ==> r == "A"
  {
    if Text.Truthy(author) then [author.value[0]] else "A"
  }

  /** A card built from a backend story always has an author, so its avatar
      shows the author's first letter; a story without a profile name shows
      the `A` of `Anonymous`. */
  lemma CardInitial(s: Stories.Story)
    ensures Initial(Some(ToCard(s).author)) == [ToCard(s).author[0]]
    ensures !Text.Truthy(ProfileName(s)) ==> Initial(Some(ToCard(s).author)) == "A"
  {
  }

  /** The subtitle: the community, then `, ` and the province when the
      province is non-empty. */
  function Subtitle(c: FeedCard): (r: string)
    ensures c.community <= r
    ensures c.province == "" ==> r == c.community
    ensures c.province != "" ==> r == c.community + ", " + c.province
  {
    c.community + (if c.province != "" then ", " + c.province else "")
  }

  // ---- agreement with the other views of a story ----

  /** The feed credits a story to the same name as its map marker. */
  lemma CardAuthorIsMarkerAuthor(s: Stories.Story)
    ensures ToCard(s).author == StoryMap.MarkerAuthor(s)
  {
  }

  /** The feed subtitle is the story card's location line whenever the
      community is shown, which on a backend card is always. */
  lemma SubtitleIsLocationLine(c: FeedCard)
    ensures c.community != "" ==>
              StoryCard.LocationLine(c.community, c.province) == Some(Subtitle(c))
  {
  }

  /** On a backend card the community is never empty, so the two always
      agree there. */
  lemma CardSubtitle(s: Stories.Story)
    ensures StoryCard.LocationLine(ToCard(s).community, ToCard(s).province) == Some(Subtitle(ToCard(s)))
  {
    SubtitleIsLocationLine(ToCard(s));
  }

  /** The feed and the story card grey out exactly the same categories. */
  lemma BadgesAgree(category: string)
    ensures CategoryColor(category) == DefaultColor <==>
            StoryCard.CategoryColor(category) == StoryCard.DefaultColor
  {
  }

  /** The feed's fixed labels are the English catalog's labels. */
  lemma LabelsAreEnglish(category: string)
    requires category in Categories.Known
    ensures CategoryLabel(category) == StoryCard.CategoryLabel(Translation.Translations, Translation.En, category)
  {
    EnglishEntry(category);
    assert Translation.Translations.TableOf(Translation.En) == Translation.EnTable;
  }

  /** The English table's entry for a known category is the feed's label. */
  lemma EnglishEntry(category: string)
    requires category in Categories.Known
    ensures StoryCard.LabelKey(category) in Translation.EnTable
    ensures Translation.EnTable[StoryCard.LabelKey(category)] == Labels[category]
  {
    if category == "traditions" || category == "crafts" {
      EnglishEntryTraditionsCrafts(category);
    } else if category == "music" || category == "agriculture" {
      EnglishEntryMusicAgriculture(category);
    } else if category == "celebrations" || category == "traditional_dances" {
      EnglishEntryCelebrationsDances(category);
    } else {
      EnglishEntryWisdomClothes(category);
    }
  }

  /** `EnglishEntry` for traditions and crafts, split off to keep each proof small. */
  lemma EnglishEntryTraditionsCrafts(category: string)
    requires category == "traditions" || category == "crafts"
    ensures StoryCard.LabelKey(category) in Translation.EnTable
    ensures Translation.EnTable[StoryCard.LabelKey(category)] == Labels[category]
  {
    if category == "traditions" {
      assert StoryCard.LabelKey(category) == "category.traditions";
    } else {
      assert StoryCard.LabelKey(category) == "category.crafts";
    }
  }

  /** `EnglishEntry` for music and agriculture, split off to keep each proof small. */
  lemma EnglishEntryMusicAgriculture(category: string)
    requires category == "music" || category == "agriculture"
    ensures StoryCard.LabelKey(category) in Translation.EnTable
    ensures Translation.EnTable[StoryCard.LabelKey(category)] == Labels[category]
  {
    if category == "music" {
      assert StoryCard.LabelKey(category) == "category.music";
    } else {
      assert StoryCard.LabelKey(category) == "category.agriculture";
    }
  }

  /** `EnglishEntry` for celebrations and traditional dances, split off to keep each proof small. */
  lemma EnglishEntryCelebrationsDances(category: string)
    requires category == "celebrations" || category == "traditional_dances"
    ensures StoryCard.LabelKey(category) in Translation.EnTable
    ensures Translation.EnTable[StoryCard.LabelKey(category)] == Labels[category]
  {
    if category == "celebrations" {
      assert StoryCard.LabelKey(category) == "category.celebrations";
    } else {
      assert StoryCard.LabelKey(category) == "category.traditional_dances";
    }
  }

  /** `EnglishEntry` for elder wisdom and traditional clothes, split off to keep each proof small. */
  lemma EnglishEntryWisdomClothes(category: string)
    requires category == "elder_wisdom" || category == "traditional_clothes"
    ensures StoryCard.LabelKey(category) in Translation.EnTable
    ensures Translation.EnTable[StoryCard.LabelKey(category)] == Labels[category]
  {
    if category == "elder_wisdom" {
      assert StoryCard.LabelKey(category) == "category.elder_wisdom";
    } else {
      assert StoryCard.LabelKey(category) == "category.traditional_clothes";
    }
  }

  /** The cards of a concatenation are the cards of each part. */
  lemma ViewConcat(a: seq<Stories.Story>, b: seq<Stories.Story>)
    requires a != [] && b != []
    ensures View(Some(a + b)).cards == View(Some(a)).cards + View(Some(b)).cards
  {
  }

}

=== FILE: geo.dfy ===
/** Map positions. Coordinates are only ever copied or looked up, never
    computed with, so a position is an opaque pair. */
module Geo {

  /** A `[latitude, longitude]` pair. */
  datatype Position = Position(lat: real, lng: real)
}

=== FILE: photogallery.dfy ===
/** The photo gallery of `src/components/PhotoGallery.tsx`: the category
    buttons with their counts and the images shown for the selected one. */
module PhotoGallery {
  import Seqs

  /** A destination passed in by the page. */
  datatype Destination = Destination(id: int, name: string, location: string, description: string, image: string)

  /** A gallery tile. */
  datatype Image = Image(url: string, title: string, category: string, location: string)

  /** A filter button. */
  datatype Button = Button(id: string, name: string, count: nat)

  /** `galleryImages`: the built-in photos. */
  const GalleryImages: seq<Image> := [
    Image("https://images.unsplash.com/photo-1472396961693-142e6e269027?w=800&h=600&fit=crop", "Wildlife in Gorongosa", "wildlife", "Gorongosa National Park"),
    Image("https://images.unsplash.com/photo-1466721591366-2d5fba72006d?w=800&h=600&fit=crop", "Antelope and Zebra", "wildlife", "Niassa Reserve"),
    Image("https://images.unsplash.com/photo-1493962853295-0fd70327578a?w=800&h=600&fit=crop", "Rural Cattle", "rural", "Inhambane Province"),
    Image("https://images.unsplash.com/photo-1465379944081-7f47de8d74ac?w=800&h=600&fit=crop", "Forest Cattle", "rural", "Manica Province"),
    Image("https://images.unsplash.com/photo-1485833077593-4278bba3f11f?w=800&h=600&fit=crop", "Rural Wildlife", "wildlife", "Tete Province"),
    Image("https://images.unsplash.com/photo-1469041797191-50ace28483c3?w=800&h=600&fit=crop", "Desert Wildlife", "wildlife", "Gaza Province"),
    Image("https://images.unsplash.com/photo-1433086966358-54859d0ed716?w=800&h=600&fit=crop", "Cascade Falls", "nature", "Chimanimani Mountains"),
    Image("https://images.unsplash.com/photo-1509316975850-ff9c5deb0cd9?w=800&h=600&fit=crop", "Tropical Forest", "nature", "Niassa Reserve"),
    Image("https://images.unsplash.com/photo-1518495973542-4542c06a5843?w=800&h=600&fit=crop", "Sunrise Through Trees", "nature", "Quirimbas Archipelago"),
    Image("https://images.unsplash.com/photo-1500375592092-40eb2168fd21?w=800&h=600&fit=crop", "Ocean Waves", "beaches", "Bazaruto Archipelago"),
    Image("https://images.unsplash.com/photo-1426604966848-d7adac402bff?w=800&h=600&fit=crop", "Mountain Landscape", "mountains", "Chimanimani"),
    Image("https://images.unsplash.com/photo-1578662996442-48f60103fc96?w=800&h=600&fit=crop", "Rural Village", "rural", "Zambézia Province"),
    Image("https://images.unsplash.com/photo-1547036967-23d11aacaee0?w=800&h=600&fit=crop", "African Savanna", "nature", "Gorongosa"),
    Image("https://images.unsplash.com/photo-1439066615861-d1af74d74000?w=800&h=600&fit=crop", "Pristine Coastline", "beaches", "Cabo Delgado"),
    Image("https://images.unsplash.com/photo-1506905925346-21bda4d32df4?w=800&h=600&fit=crop", "Mountain Vista", "mountains", "Manica Highlands"),
    Image("https://images.unsplash.com/photo-1559827260-dc66d52bef19?w=800&h=600&fit=crop", "Island Paradise", "beaches", "Quirimbas Islands")
  ]

  /** The five photo categories of the buttons after `all` and `destinations`. */
  const PhotoCategories: seq<string> := ["wildlife", "nature", "beaches", "mountains", "rural"]

  /** The images of one category, in order. */
  function OfCategory(images: seq<Image>, category: string): (r: seq<Image>)
    ensures forall i :: 0 <= i < |r| ==> r[i].category == category
    ensures forall x :: x in r <==> x in images && x.category == category
  {
    Seqs.Filter(images, (img: Image) => img.category == category)
  }

  /** A destination as a tile. */
  function DestinationImage(d: Destination): Image {
    Image(d.image, d.name, "destinations", d.location)
  }

  function DestinationImages(destinations: seq<Destination>): (r: seq<Image>)
    ensures |r| == |destinations|
    ensures forall i :: 0 <= i < |r| ==>
              r[i].category == "destinations" && r[i].url == destinations[i].image &&
              r[i].title == destinations[i].name && r[i].location == destinations[i].location
  {
    Seqs.Map(DestinationImage, destinations)
  }

  /** `getFilteredImages` for the selected button id, over the gallery
      `images`. */
  function FilteredImages(destinations: seq<Destination>, images: seq<Image>, selected: string): (r: seq<Image>)
    ensures selected == "all" ==> r == DestinationImages(destinations) + images
    ensures selected == "destinations" ==> r == DestinationImages(destinations)
    ensures selected != "all" && selected != "destinations" ==> r == OfCategory(images, selected)
  {
    var fromDestinations :=
      if selected == "all" || selected == "destinations" then DestinationImages(destinations) else [];
    if selected == "all" then fromDestinations + images
    else if selected != "destinations" then fromDestinations + OfCategory(images, selected)
    else fromDestinations
  }

  /** `categories`: the buttons and their counts. */
  function Buttons(destinations: seq<Destination>, images: seq<Image>): (r: seq<Button>)
    ensures |r| == 7 && r[0].id == "all" && r[1].id == "destinations"
    ensures forall i :: 2 <= i < 7 ==> r[i].id == PhotoCategories[i - 2]
  {
    [ Button("all", "All Photos", |images| + |destinations|),
      Button("destinations", "Destinations", |destinations|),
      Button("wildlife", "Wildlife", |OfCategory(images, "wildlife")|),
      Button("nature", "Nature", |OfCategory(images, "nature")|),
      Button("beaches", "Beaches", |OfCategory(images, "beaches")|),
      Button("mountains", "Mountains", |OfCategory(images, "mountains")|),
      Button("rural", "Rural Life", |OfCategory(images, "rural")|) ]
  }

  /** A photo-category button shows the count of its category. */
  lemma CategoryCountMatches(destinations: seq<Destination>, images: seq<Image>, i: nat)
    requires 2 <= i < 7
    ensures var b := Buttons(destinations, images)[i];
            b.count == |OfCategory(images, b.id)| && b.id != "all" && b.id != "destinations"
  {
    var bs := Buttons(destinations, images);
    if i == 2 { assert bs[i] == Button("wildlife", "Wildlife", |OfCategory(images, "wildlife")|); }
    else if i == 3 { assert bs[i] == Button("nature", "Nature", |OfCategory(images, "nature")|); }
    else if i == 4 { assert bs[i] == Button("beaches", "Beaches", |OfCategory(images, "beaches")|); }
    else if i == 5 { assert bs[i] == Button("mountains", "Mountains", |OfCategory(images, "mountains")|); }
    else { assert bs[i] == Button("rural", "Rural Life", |OfCategory(images, "rural")|); }
  }

  /** Every button's count is the number of tiles shown when it is selected,
      for any destinations and any gallery. */
  lemma ButtonCountsMatch(destinations: seq<Destination>, images: seq<Image>)
    ensures var bs := Buttons(destinations, images);
            forall i :: 0 <= i < |bs| ==> bs[i].count == |FilteredImages(destinations, images, bs[i].id)|
  {
    var bs := Buttons(destinations, images);
    forall i | 0 <= i < |bs|
      ensures bs[i].count == |FilteredImages(destinations, images, bs[i].id)|
    {
      if i >= 2 {
        CategoryCountMatches(destinations, images, i);
      }
    }
  }

  /** A gallery whose every image has one of the five photo categories. */
  predicate Categorised(images: seq<Image>) {
    forall i :: 0 <= i < |images| ==> images[i].category in PhotoCategories
  }

  /** The five category counts of a categorised gallery add up to its size. */
  lemma {:induction false} CategoriesPartition(images: seq<Image>)
    requires Categorised(images)
    ensures |images| == |OfCategory(images, "wildlife")| + |OfCategory(images, "nature")|
                      + |OfCategory(images, "beaches")| + |OfCategory(images, "mountains")|
                      + |OfCategory(images, "rural")|
  {
    if images != [] {
      CategoriesPartition(images[1..]);
      assert forall c :: OfCategory(images, c) ==
                         (if images[0].category == c then [images[0]] else []) + OfCategory(images[1..], c);
    }
  }

  /** The `all` count is the destination count plus the five category
      counts whenever every photo is in one of the five categories. */
  lemma AllCountIsSum(destinations: seq<Destination>, images: seq<Image>)
    requires Categorised(images)
    ensures var b := Buttons(destinations, images);
            b[0].count == b[1].count + b[2].count + b[3].count + b[4].count + b[5].count + b[6].count
  {
    CategoriesPartition(images);
  }

  /** Every built-in photo is in one of the five categories, so for the
      real gallery the `all` count is always the sum of the others. */
  lemma GalleryImagesCategorised()
    ensures Categorised(GalleryImages)
  {
  }
}

=== FILE: seqs.dfy ===
/** Sequence operations the components use: `Array.prototype.filter` and
    `map`, the iteration order of a `Set` built from an array, and a `Map`
    filled by `set` calls in array order. */
module Seqs {

  /** `s.filter(p)`: the elements satisfying `p`, in their original order. */
  function Filter<T(!new)>(s: seq<T>, p: T -> bool): (r: seq<T>)
    ensures |r| <= |s|
    ensures forall x :: x in r <==> x in s && p(x)
    ensures forall i :: 0 <= i < |r| ==> p(r[i])
  {
    if s == [] then []
    else (if p(s[0]) then [s[0]] else []) + Filter(s[1..], p)
  }

  /** `r` is `s` read at the strictly increasing positions `idx`. */
  ghost predicate Picks<T>(s: seq<T>, r: seq<T>, idx: seq<nat>) {
    && |idx| == |r|
    && (forall i :: 0 <= i < |idx| ==> idx[i] < |s| && r[i] == s[idx[i]])
    && (forall i, j :: 0 <= i < j < |idx| ==> idx[i] < idx[j])
  }

  /** The filter keeps its elements in their original order: its result is
      `s` read at increasing positions, which are exactly the positions
      whose element passes. */
  lemma {:induction false} FilterIndices<T(!new)>(s: seq<T>, p: T -> bool) returns (idx: seq<nat>)
    ensures Picks(s, Filter(s, p), idx)
    ensures forall k :: 0 <= k < |s| && p(s[k]) ==> k in idx
  {
    if s == [] {
      idx := [];
    } else {
      var rest := FilterIndices(s[1..], p);
      var tail := Filter(s[1..], p);
      var shifted := Shift(rest);
      PicksShift(s, tail, rest);
      ShiftCovers(s, p, rest);
      if p(s[0]) {
        idx := [0] + shifted;
        assert Filter(s, p) == [s[0]] + tail;
        PicksCons(s, tail, shifted);
      } else {
        idx := shifted;
        assert Filter(s, p) == tail;
      }
    }
  }

  /** Positions covered in the tail are covered, one further on, in the
      whole. */
  lemma ShiftCovers<T>(s: seq<T>, p: T -> bool, idx: seq<nat>)
    requires s != []
    requires forall k :: 0 <= k < |s[1..]| && p(s[1..][k]) ==> k in idx
    ensures forall k :: 1 <= k < |s| && p(s[k]) ==> k in Shift(idx)
  {
    forall k | 1 <= k < |s| && p(s[k]) ensures k in Shift(idx) {
      assert s[1..][k - 1] == s[k];
      var i :| 0 <= i < |idx| && idx[i] == k - 1;
      assert Shift(idx)[i] == k;
    }
  }

  /** Picking from the tail is picking from the whole one place further on. */
  lemma PicksShift<T>(s: seq<T>, r: seq<T>, idx: seq<nat>)
    requires s != [] && Picks(s[1..], r, idx)
    ensures Picks(s, r, Shift(idx))
    ensures forall i :: 0 <= i < |idx| ==> Shift(idx)[i] > 0
  {
  }


  /** Picking the head first, then positions after it. */
  lemma PicksCons<T>(s: seq<T>, r: seq<T>, idx: seq<nat>)
    requires s != [] && Picks(s, r, idx)
    requires forall i :: 0 <= i < |idx| ==> idx[i] > 0
    ensures Picks(s, [s[0]] + r, [0] + idx)
  {
  }


  /** Every position moved one place to the right. */
  function Shift(idx: seq<nat>): (r: seq<nat>)
    ensures |r| == |idx|
    ensures forall i :: 0 <= i < |r| ==> r[i] == idx[i] + 1
  {
    seq(|idx|, i requires 0 <= i < |idx| => idx[i] + 1)
  }

  /** `s.map(f)`. */
  function Map<T, U>(f: T -> U, s: seq<T>): (r: seq<U>)
    ensures |r| == |s|
    ensures forall i :: 0 <= i < |s| ==> r[i] == f(s[i])
  {
    if s == [] then [] else [f(s[0])] + Map(f, s[1..])
  }

  lemma {:induction false} FilterConcat<T(!new)>(a: seq<T>, b: seq<T>, p: T -> bool)
    ensures Filter(a + b, p) == Filter(a, p) + Filter(b, p)
  {
    if a == [] {
      assert a + b == b;
    } else {
      assert (a + b)[1..] == a[1..] + b;
      FilterConcat(a[1..], b, p);
    }
  }

  /** Filtering keeps everything when every element passes. */
  lemma {:induction false} FilterAll<T(!new)>(s: seq<T>, p: T -> bool)
    requires forall i :: 0 <= i < |s| ==> p(s[i])
    ensures Filter(s, p) == s
  {
    if s != [] {
      FilterAll(s[1..], p);
    }
  }

  /** Filtering a mapped sequence is mapping the filtered sequence, when the
      two predicates agree through `f`. */
  lemma {:induction false} FilterMap<T(!new), U(!new)>(f: T -> U, s: seq<T>, q: U -> bool, p: T -> bool)
    requires forall x :: q(f(x)) == p(x)
    ensures Filter(Map(f, s), q) == Map(f, Filter(s, p))
  {
    if s != [] {
      assert Map(f, s)[1..] == Map(f, s[1..]);
      FilterMap(f, s[1..], q, p);
    }
  }

  /** Elements pairwise distinct. */
  predicate Distinct<T(==)>(s: seq<T>) {
    forall i, j :: 0 <= i < j < |s| ==> s[i] != s[j]
  }

  /** Index of the first occurrence of `x` in `s`. */
  function FirstIndex<T(==)>(s: seq<T>, x: T): (k: nat)
    requires x in s
    ensures k < |s| && s[k] == x
    ensures forall j :: 0 <= j < k ==> s[j] != x
  {
    if s[0] == x then 0 else 1 + FirstIndex(s[1..], x)
  }

  /** `[...new Set(s)]`: a `Set` appends a value on its first `add` and
      ignores later ones, so this folds over `s` from the left. */
  function Dedup<T(==,!new)>(s: seq<T>): (r: seq<T>)
    ensures Distinct(r)
    ensures forall x :: x in r <==> x in s
  {
    if s == [] then []
    else
      var d := Dedup(s[..|s| - 1]);
      var x := s[|s| - 1];
      assert forall y :: y in s <==> y in s[..|s| - 1] || y == x;
      if x in d then d else d + [x]
  }

  lemma {:induction false} FirstIndexAppend<T>(s: seq<T>, y: T, x: T)
    requires x in s
    ensures FirstIndex(s + [y], x) == FirstIndex(s, x)
  {
    if s[0] != x {
      assert (s + [y])[1..] == s[1..] + [y];
      FirstIndexAppend(s[1..], y, x);
    }
  }

  /** `Dedup` lists the values in the order of their first occurrence. */
  lemma {:induction false} DedupFirstOccurrenceOrder<T(!new)>(s: seq<T>)
    ensures forall i, j :: 0 <= i < j < |Dedup(s)| ==>
              FirstIndex(s, Dedup(s)[i]) < FirstIndex(s, Dedup(s)[j])
  {
    if s != [] {
      var init, x := s[..|s| - 1], s[|s| - 1];
      assert s == init + [x];
      DedupFirstOccurrenceOrder(init);
      var d := Dedup(init);
      forall y | y in d
        ensures FirstIndex(s, y) == FirstIndex(init, y)
      {
        FirstIndexAppend(init, x, y);
      }
      if x !in d {
        assert x !in init;
        assert FirstIndex(s, x) == |init|;
      }
    }
  }

  /** A `Map` filled by `m.set(k, v)` for each pair in order: a later pair
      overwrites an earlier one with the same key. */
  function LastWins<K(!new), V>(kvs: seq<(K, V)>): (m: map<K, V>)
    ensures forall k :: k in m <==> exists i :: 0 <= i < |kvs| && kvs[i].0 == k
    ensures forall i :: 0 <= i < |kvs| && (forall j :: i < j < |kvs| ==> kvs[j].0 != kvs[i].0) ==>
              m[kvs[i].0] == kvs[i].1
  {
    if kvs == [] then map[]
    else
      var init := kvs[..|kvs| - 1];
      var m0 := LastWins(init);
      assert forall i :: 0 <= i < |init| ==> init[i] == kvs[i];
      m0[kvs[|kvs| - 1].0 := kvs[|kvs| - 1].1]
  }
}

=== FILE: sharestory.dfy ===
/** The story submission form of `src/pages/ShareStory.tsx`: the `zod`
    schema that validates the form, the storage paths of the uploaded image
    and audio files, and the record handed to `createStory`. */
module ShareStory {
  import opened Wrappers
  import Text

  /** The raw form values; `None` is a field the form never set. */
  datatype FormInput = FormInput(
    title: Option<string>,
    description: Option<string>,
    category: Option<string>,
    language: Option<string>,
    location: Option<string>,
    province: Option<string>)

  /** `StoryFormData`: the values once the schema accepted them. */
  datatype FormData = FormData(
    title: string,
    description: string,
    category: string,
    language: string,
    location: Option<string>,
    province: Option<string>)

  /** A schema issue: the field it is about and its message. */
  datatype Issue = Issue(field: string, message: string)

  /** `z.string().min(n, message)` on one field: a missing value is
      `Required`, a shorter one gets the schema's own message. Lengths are
      counted in characters. */
  function MinLength(field: string, v: Option<string>, n: nat, message: string): (r: seq<Issue>)
    ensures r == [] <==> v.Some? && |v.value| >= n
    ensures |r| <= 1
    ensures forall x :: x in r ==> x.field == field
    ensures v.Some? && r != [] ==> r[0].message == message
    ensures v.None? ==> r == [Issue(field, "Required")]
  {
    match v
    case None => [Issue(field, "Required")]
    case Some(s) => if |s| < n then [Issue(field, message)] else []
  }

  /** The issues of `storySchema`, in the order of its fields. */
  function Issues(f: FormInput): seq<Issue> {
    MinLength("title", f.title, 1, "Title is required")
    + MinLength("description", f.description, 10, "Description must be at least 10 characters")
    + MinLength("category", f.category, 1, "Category is required")
  }

  /** The three checks the schema makes. */
  predicate TitleOk(f: FormInput) { f.title.Some? && |f.title.value| >= 1 }
  predicate DescriptionOk(f: FormInput) { f.description.Some? && |f.description.value| >= 10 }
  predicate CategoryOk(f: FormInput) { f.category.Some? && |f.category.value| >= 1 }

  /** `storySchema.safeParse`: the form data when every check passes, the
      list of issues otherwise; a missing language becomes `pt`. */
  function Validate(f: FormInput): (r: Result<FormData, seq<Issue>>)
    ensures r.Success? <==> TitleOk(f) && DescriptionOk(f) && CategoryOk(f)
    ensures r.Failure? ==> r.error != []
    ensures r.Failure? ==> ((exists x :: x in r.error && x.field == "title") <==> !TitleOk(f))
    ensures r.Failure? ==> ((exists x :: x in r.error && x.field == "description") <==> !DescriptionOk(f))
    ensures r.Failure? ==> ((exists x :: x in r.error && x.field == "category") <==> !CategoryOk(f))
    ensures r.Success? ==>
      r.value.title == f.title.value && r.value.description == f.description.value
      && r.value.category == f.category.value
      && r.value.location == f.location && r.value.province == f.province
    ensures r.Success? ==> r.value.language == f.language.GetOr("pt")
  {
    var t := MinLength("title", f.title, 1, "Title is required");
    var d := MinLength("description", f.description, 10, "Description must be at least 10 characters");
    var c := MinLength("category", f.category, 1, "Category is required");
    var issues := Issues(f);
    assert issues == t + d + c;
    assert forall x :: x in issues <==> x in t || x in d || x in c;
    assert !TitleOk(f) ==> t[0] in issues;
    assert !DescriptionOk(f) ==> d[0] in issues;
    assert !CategoryOk(f) ==> c[0] in issues;
    if issues == [] then
      Success(FormData(f.title.value, f.description.value, f.category.value,
                       f.language.GetOr("pt"), f.location, f.province))
    else Failure(issues)
  }

  /** The schema does not trim: a title of one space is accepted. */
  lemma BlankTitleAccepted(description: string, category: string)
    requires |description| >= 10 && |category| >= 1
    ensures Validate(FormInput(Some(" "), Some(description), Some(category), None, None, None)).Success?
  {
  }

  /** A nine-character description is rejected with the schema's message. */
  lemma ShortDescriptionRejected(title: string, category: string)
    requires |title| >= 1 && |category| >= 1
    ensures Validate(FormInput(Some(title), Some("too short"), Some(category), None, None, None))
         == Failure([Issue("description", "Description must be at least 10 characters")])
  {
    var f := FormInput(Some(title), Some("too short"), Some(category), None, None, None);
    assert |"too short"| == 9;
    assert MinLength("title", f.title, 1, "Title is required") == [];
    assert MinLength("category", f.category, 1, "Category is required") == [];
    assert Issues(f) == [Issue("description", "Description must be at least 10 characters")];
  }

  /** `${prefix}/${userId}/${timestamp}-${fileName}`: the pieces sit in
      that order, separated by `/`, `/` and `-`, and the digits between the
      user id and the file name are the timestamp in plain decimal, with no
      leading zero. */
  function UploadPath(prefix: string, userId: string, timestamp: nat, fileName: string): (r: string)
    ensures |r| >= |prefix| + |userId| + |fileName| + 4
    ensures r[..|prefix|] == prefix && r[|prefix|] == '/'
    ensures r[|prefix| + 1..|prefix| + 1 + |userId|] == userId && r[|prefix| + 1 + |userId|] == '/'
    ensures r[|r| - |fileName|..] == fileName && r[|r| - |fileName| - 1] == '-'
    ensures var digits := r[|prefix| + |userId| + 2..|r| - |fileName| - 1];
            digits != [] && (forall i :: 0 <= i < |digits| ==> Text.IsDigit(digits[i]))
            && Text.DigitsValue(digits) == timestamp && (|digits| > 1 ==> digits[0] != '0')
  {
    var digits := Text.NatToString(timestamp);
    var r := prefix + "/" + userId + "/" + digits + "-" + fileName;
    assert r[|prefix| + |userId| + 2..|r| - |fileName| - 1] == digits;
    Text.NatToStringRoundTrip(timestamp);
    r
  }

  /** The storage path of an uploaded image: under `images/` and the
      user's folder. */
  function ImagePath(userId: string, timestamp: nat, fileName: string): (r: string)
    ensures |r| >= 7 + |userId| + 1
    ensures r[..7] == "images/" && r[7..7 + |userId|] == userId && r[7 + |userId|] == '/'
  {
    UploadPath("images", userId, timestamp, fileName)
  }

  /** The storage path of an uploaded audio file: under `audio/` and the
      user's folder. */
  function AudioPath(userId: string, timestamp: nat, fileName: string): (r: string)
    ensures |r| >= 6 + |userId| + 1
    ensures r[..6] == "audio/" && r[6..6 + |userId|] == userId && r[6 + |userId|] == '/'
  {
    UploadPath("audio", userId, timestamp, fileName)
  }

  /** An image path and an audio path never coincide. */
  lemma ImageAndAudioPathsDiffer(u1: string, t1: nat, f1: string, u2: string, t2: nat, f2: string)
    ensures ImagePath(u1, t1, f1) != AudioPath(u2, t2, f2)
  {
    assert ImagePath(u1, t1, f1)[..7][0] == 'i';
    assert AudioPath(u2, t2, f2)[..6][0] == 'a';
  }

  /** The same user uploading the same file name at two different times
      gets two different paths. */
  lemma PathsDifferByTime(prefix: string, userId: string, t1: nat, t2: nat, fileName: string)
    requires t1 != t2
    ensures UploadPath(prefix, userId, t1, fileName) != UploadPath(prefix, userId, t2, fileName)
  {
  }

  /** `NewStory`: the form data with the author and the public URLs of the
      uploaded files. */
  datatype NewStory = NewStory(
    data: FormData,
    userId: string,
    imageUrl: Option<string>,
    audioUrl: Option<string>)

  /** What a submission does: nothing without a signed-in user, stops at the
      first upload that fails, otherwise hands a record to `createStory`. */
  datatype Outcome = NotSignedIn | UploadFailed(path: string) | Insert(story: NewStory)

  /** A chosen file: its name is all the model needs. */
  datatype File = File(name: string)

  /** `onSubmit`. `upload(path)` is the public URL of the stored file, or
      `None` when storage refused it; `imageTime` and `audioTime` are the
      values of `Date.now()` when each path is built. */
  function Submit(user: Option<string>, data: FormData, image: Option<File>, audio: Option<File>,
                  imageTime: nat, audioTime: nat, upload: string -> Option<string>): (r: Outcome)
    ensures user.None? <==> r == NotSignedIn
    ensures r.UploadFailed? ==>
      (image.Some? && r.path == ImagePath(user.value, imageTime, image.value.name)
        && upload(r.path).None?)
      || (audio.Some? && r.path == AudioPath(user.value, audioTime, audio.value.name)
        && upload(r.path).None?)
    ensures r.Insert? ==> r.story.data == data && user == Some(r.story.userId)
    ensures r.Insert? ==> (r.story.imageUrl.None? <==> image.None?)
    ensures r.Insert? ==> (r.story.audioUrl.None? <==> audio.None?)
    ensures r.Insert? && image.Some? ==>
      r.story.imageUrl == upload(ImagePath(user.value, imageTime, image.value.name))
    ensures r.Insert? && audio.Some? ==>
      r.story.audioUrl == upload(AudioPath(user.value, audioTime, audio.value.name))
  {
    match user
    case None => NotSignedIn
    case Some(id) =>
      var imageUrl := if image.Some? then upload(ImagePath(id, imageTime, image.value.name)) else None;
      var audioUrl := if audio.Some? then upload(AudioPath(id, audioTime, audio.value.name)) else None;
      if image.Some? && imageUrl.None? then UploadFailed(ImagePath(id, imageTime, image.value.name))
      else if audio.Some? && audioUrl.None? then UploadFailed(AudioPath(id, audioTime, audio.value.name))
      else Insert(NewStory(data, id, imageUrl, audioUrl))
  }

  /** A signed-in user whose uploads all succeed always reaches
      `createStory`, and a failed image upload stops before the audio is
      sent. */
  lemma SubmitReachesInsert(user: string, data: FormData, image: Option<File>, audio: Option<File>,
                            imageTime: nat, audioTime: nat, upload: string -> Option<string>)
    ensures image.Some? && upload(ImagePath(user, imageTime, image.value.name)).None? ==>
      Submit(Some(user), data, image, audio, imageTime, audioTime, upload)
        == UploadFailed(ImagePath(user, imageTime, image.value.name))
    ensures (forall p :: upload(p).Some?) ==>
      Submit(Some(user), data, image, audio, imageTime, audioTime, upload).Insert?
  {
  }
}

=== FILE: stories.dfy ===
/** The pure part of `useStories` in `src/hooks/useStories.ts`: the story
    rows are fetched, the distinct author and community ids collected, the
    profiles and communities fetched for them, and each row joined with its
    profile and community. The three backend answers are inputs. */
module Stories {
  import opened Wrappers
  import Seqs
  import Text
  import Geo

  /** A row of the `stories` table. */
  datatype StoryRow = StoryRow(
    id: string,
    userId: string,
    communityId: Option<string>,
    title: string,
    description: string,
    category: string,
    language: string,
    imageUrl: Option<string>,
    audioUrl: Option<string>,
    location: Option<string>,
    province: Option<string>,
    coordinates: Option<Geo.Position>,
    createdAt: string,
    updatedAt: string)

  /** The attached author: `{ full_name }`. */
  datatype Profile = Profile(fullName: Option<string>)

  /** The attached community: `{ name }`. */
  datatype Community = Community(name: string)

  /** `Story`: a row with its profile and community, `None` standing for `null`. */
  datatype Story = Story(row: StoryRow, profiles: Option<Profile>, communities: Option<Community>)

  /** Rows of the `profiles` and `communities` queries. */
  datatype ProfileRow = ProfileRow(id: string, fullName: Option<string>)
  datatype CommunityRow = CommunityRow(id: string, name: string)

  /** A backend answer `{ data, error }`. */
  datatype Response<T> = Response(data: Option<T>, error: Option<string>)

  /** The batch lookups issued after the stories are fetched. */
  datatype Lookup = ProfilesIn(ids: seq<string>) | CommunitiesIn(ids: seq<string>)

  // ---- id collection ----

  /** `.filter(Boolean)` over nullable ids: the present, non-empty values in order. */
  function TruthyIds(ids: seq<Option<string>>): (r: seq<string>)
    ensures forall x :: x in r <==> x != "" && Some(x) in ids
  {
    if ids == [] then []
    else (if Text.Truthy(ids[0]) then [ids[0].value] else []) + TruthyIds(ids[1..])
  }

  /** Dropping the falsy ids keeps the order of first occurrences. */
  lemma {:induction false} TruthyIdsOrder(ids: seq<Option<string>>, x: string, y: string)
    requires x in TruthyIds(ids) && y in TruthyIds(ids)
    ensures Seqs.FirstIndex(TruthyIds(ids), x) < Seqs.FirstIndex(TruthyIds(ids), y)
        <==> Seqs.FirstIndex(ids, Some(x)) < Seqs.FirstIndex(ids, Some(y))
  {
    var r := TruthyIds(ids);
    var rest := TruthyIds(ids[1..]);
    if ids[0] == Some(x) {
      assert r[0] == x;
      assert Seqs.FirstIndex(r, x) == 0 && Seqs.FirstIndex(ids, Some(x)) == 0;
    } else if ids[0] == Some(y) {
      assert r[0] == y;
      assert Seqs.FirstIndex(r, y) == 0 && Seqs.FirstIndex(ids, Some(y)) == 0;
    } else {
      assert Seqs.FirstIndex(ids, Some(x)) == 1 + Seqs.FirstIndex(ids[1..], Some(x));
      assert Seqs.FirstIndex(ids, Some(y)) == 1 + Seqs.FirstIndex(ids[1..], Some(y));
      if Text.Truthy(ids[0]) {
        assert r == [ids[0].value] + rest;
        assert r[0] != x && r[0] != y;
        assert r[1..] == rest;
        assert x in rest && y in rest;
        assert Seqs.FirstIndex(r, x) == 1 + Seqs.FirstIndex(rest, x);
        assert Seqs.FirstIndex(r, y) == 1 + Seqs.FirstIndex(rest, y);
      } else {
        assert r == rest;
      }
      TruthyIdsOrder(ids[1..], x, y);
    }
  }

  /** `[...new Set(ids.filter(Boolean))]`. */
  function UniqueIds(ids: seq<Option<string>>): (r: seq<string>)
    ensures Seqs.Distinct(r)
    ensures forall x :: x in r <==> x != "" && Some(x) in ids
  {
    Seqs.Dedup(TruthyIds(ids))
  }

  /** Every distinct truthy id appears once, in the order in which the ids
      first occur. */
  lemma UniqueIdsOrder(ids: seq<Option<string>>)
    ensures forall i, j :: 0 <= i < j < |UniqueIds(ids)| ==>
              Seqs.FirstIndex(ids, Some(UniqueIds(ids)[i])) < Seqs.FirstIndex(ids, Some(UniqueIds(ids)[j]))
  {
    var r := UniqueIds(ids);
    Seqs.DedupFirstOccurrenceOrder(TruthyIds(ids));
    forall i, j | 0 <= i < j < |r|
      ensures Seqs.FirstIndex(ids, Some(r[i])) < Seqs.FirstIndex(ids, Some(r[j]))
    {
      TruthyIdsOrder(ids, r[i], r[j]);
    }
  }

  function UserIdOf(row: StoryRow): Option<string> {
    Some(row.userId)
  }

  function CommunityIdOf(row: StoryRow): Option<string> {
    row.communityId
  }

  /** `userIds`. */
  function UserIds(rows: seq<StoryRow>): (r: seq<string>)
    ensures Seqs.Distinct(r)
    ensures forall x :: x in r <==> x != "" && exists i :: 0 <= i < |rows| && rows[i].userId == x
  {
    var ids := Seqs.Map(UserIdOf, rows);
    assert forall x :: Some(x) in ids <==> exists i :: 0 <= i < |rows| && rows[i].userId == x;
    UniqueIds(ids)
  }

  /** `communityIds`. */
  function CommunityIds(rows: seq<StoryRow>): (r: seq<string>)
    ensures Seqs.Distinct(r)
    ensures forall x :: x in r <==> x != "" && exists i :: 0 <= i < |rows| && rows[i].communityId == Some(x)
  {
    var ids := Seqs.Map(CommunityIdOf, rows);
    assert forall x :: Some(x) in ids <==> exists i :: 0 <= i < |rows| && rows[i].communityId == Some(x);
    UniqueIds(ids)
  }

  // ---- the join ----

  function ProfileEntry(p: ProfileRow): (string, Profile) {
    (p.id, Profile(p.fullName))
  }

  function CommunityEntry(c: CommunityRow): (string, Community) {
    (c.id, Community(c.name))
  }

  /** `profilesMap`: empty unless the lookup was issued and returned data. */
  function ProfilesMap(ids: seq<string>, fetched: Option<seq<ProfileRow>>): map<string, Profile> {
    if |ids| > 0 && fetched.Some? then Seqs.LastWins(Seqs.Map(ProfileEntry, fetched.value)) else map[]
  }

  /** `communitiesMap`. */
  function CommunitiesMap(ids: seq<string>, fetched: Option<seq<CommunityRow>>): map<string, Community> {
    if |ids| > 0 && fetched.Some? then Seqs.LastWins(Seqs.Map(CommunityEntry, fetched.value)) else map[]
  }

  /** `{ ...story, profiles, communities }` for one row. */
  function Attach(row: StoryRow, profiles: map<string, Profile>, communities: map<string, Community>): (s: Story)
    ensures s.row == row
    ensures s.profiles.Some? <==> row.userId in profiles
    ensures s.profiles.Some? ==> s.profiles.value == profiles[row.userId]
    ensures s.communities.Some? <==> Text.Truthy(row.communityId) && row.communityId.value in communities
    ensures s.communities.Some? ==> s.communities.value == communities[row.communityId.value]
  {
    Story(
      row,
      if row.userId in profiles then Some(profiles[row.userId]) else None,
      if Text.Truthy(row.communityId) && row.communityId.value in communities then
        Some(communities[row.communityId.value])
      else None)
  }

  /** `transformedData`. */
  function Join(rows: seq<StoryRow>, profiles: Option<seq<ProfileRow>>, communities: Option<seq<CommunityRow>>): (r: seq<Story>)
    ensures |r| == |rows|
    ensures forall i :: 0 <= i < |rows| ==> r[i].row == rows[i]
  {
    var pm := ProfilesMap(UserIds(rows), profiles);
    var cm := CommunitiesMap(CommunityIds(rows), communities);
    Seqs.Map((row: StoryRow) => Attach(row, pm, cm), rows)
  }

  /** The lookups the query function issues: one per non-empty id list. */
  function Lookups(stories: Response<seq<StoryRow>>): (r: seq<Lookup>)
    ensures forall q :: q in r ==> |q.ids| > 0
    ensures stories.error.Some? || stories.data.None? || stories.data == Some([]) ==> r == []
    ensures stories.error.None? && stories.data.Some? ==>
              (ProfilesIn(UserIds(stories.data.value)) in r <==> |UserIds(stories.data.value)| > 0)
    ensures stories.error.None? && stories.data.Some? && stories.data != Some([]) ==>
              (CommunitiesIn(CommunityIds(stories.data.value)) in r <==> |CommunityIds(stories.data.value)| > 0)
    ensures stories.error.None? && stories.data.Some? ==>
              forall q :: q in r ==>
                (q == ProfilesIn(UserIds(stories.data.value)) || q == CommunitiesIn(CommunityIds(stories.data.value)))
    ensures |r| <= 2
    ensures |r| == 2 ==> r[0].ProfilesIn? && r[1].CommunitiesIn?
  {
    if stories.error.Some? || stories.data.None? || stories.data == Some([]) then []
    else
      var users := UserIds(stories.data.value);
      var communities := CommunityIds(stories.data.value);
      var p := if |users| > 0 then [ProfilesIn(users)] else [];
      var c := if |communities| > 0 then [CommunitiesIn(communities)] else [];
      assert forall q :: q in p + c <==> q in p || q in c;
      p + c
  }

  /** The query function of `useStories`: a stories error is thrown, an empty
      answer is `[]`, otherwise every row is joined. Errors of the profile
      and community lookups are not looked at. */
  function LoadStories(stories: Response<seq<StoryRow>>, profiles: Response<seq<ProfileRow>>,
                       communities: Response<seq<CommunityRow>>): (r: Result<seq<Story>, string>)
    ensures r.Failure? <==> stories.error.Some?
    ensures r.Failure? ==> r.error == stories.error.value
    ensures stories.error.None? && (stories.data.None? || stories.data == Some([])) ==> r == Success([])
    ensures r.Success? && stories.data.Some? ==>
              |r.value| == |stories.data.value| &&
              forall i :: 0 <= i < |r.value| ==> r.value[i].row == stories.data.value[i]
    ensures stories.error.None? && stories.data.Some? && stories.data != Some([]) ==>
              r == Success(Join(stories.data.value, profiles.data, communities.data))
  {
    if stories.error.Some? then Failure(stories.error.value)
    else if stories.data.None? || stories.data == Some([]) then Success([])
    else Success(Join(stories.data.value, profiles.data, communities.data))
  }

  /** Story `i` of the join is row `i` with the two lookup maps attached. */
  lemma JoinAt(rows: seq<StoryRow>, ps: Option<seq<ProfileRow>>, cs: Option<seq<CommunityRow>>, i: nat)
    requires i < |rows|
    ensures Join(rows, ps, cs)[i]
         == Attach(rows[i], ProfilesMap(UserIds(rows), ps), CommunitiesMap(CommunityIds(rows), cs))
  {
  }

  /** The profile map of fetched rows: the ids are those of the rows, and
      the last row with an id wins. */
  lemma ProfilesMapEntries(ids: seq<string>, ps: seq<ProfileRow>)
    requires |ids| > 0
    ensures var pm := ProfilesMap(ids, Some(ps));
            forall id :: id in pm <==> exists k :: 0 <= k < |ps| && ps[k].id == id
    ensures var pm := ProfilesMap(ids, Some(ps));
            forall k :: 0 <= k < |ps| && (forall j :: k < j < |ps| ==> ps[j].id != ps[k].id) ==>
              pm[ps[k].id] == Profile(ps[k].fullName)
  {
    var entries := Seqs.Map(ProfileEntry, ps);
    assert forall k :: 0 <= k < |ps| ==> entries[k] == (ps[k].id, Profile(ps[k].fullName));
  }

  /** The community map of fetched rows, likewise. */
  lemma CommunitiesMapEntries(ids: seq<string>, cs: seq<CommunityRow>)
    requires |ids| > 0
    ensures var cm := CommunitiesMap(ids, Some(cs));
            forall id :: id in cm <==> exists k :: 0 <= k < |cs| && cs[k].id == id
    ensures var cm := CommunitiesMap(ids, Some(cs));
            forall k :: 0 <= k < |cs| && (forall j :: k < j < |cs| ==> cs[j].id != cs[k].id) ==>
              cm[cs[k].id] == Community(cs[k].name)
  {
    var entries := Seqs.Map(CommunityEntry, cs);
    assert forall k :: 0 <= k < |cs| ==> entries[k] == (cs[k].id, Community(cs[k].name));
  }

  /** A story gets the last fetched profile whose id is its `user_id`, and
      `null` when no fetched profile has that id. */
  lemma ProfileAttached(rows: seq<StoryRow>, ps: seq<ProfileRow>, cs: Option<seq<CommunityRow>>, i: nat)
    requires i < |rows| && rows[i].userId != ""
    ensures var s := Join(rows, Some(ps), cs)[i];
            (forall k :: 0 <= k < |ps| ==> ps[k].id != rows[i].userId) ==> s.profiles == None
    ensures var s := Join(rows, Some(ps), cs)[i];
            forall k :: 0 <= k < |ps| && ps[k].id == rows[i].userId &&
                        (forall j :: k < j < |ps| ==> ps[j].id != ps[k].id) ==>
              s.profiles == Some(Profile(ps[k].fullName))
  {
    var ids := UserIds(rows);
    assert rows[i].userId in ids;
    JoinAt(rows, Some(ps), cs, i);
    ProfilesMapEntries(ids, ps);
  }

  /** A story with a falsy `community_id` gets no community; with one, the
      last fetched community of that id, or `null`. */
  lemma CommunityAttached(rows: seq<StoryRow>, ps: Option<seq<ProfileRow>>, cs: seq<CommunityRow>, i: nat)
    requires i < |rows|
    ensures var s := Join(rows, ps, Some(cs))[i];
            !Text.Truthy(rows[i].communityId) ==> s.communities == None
    ensures var s := Join(rows, ps, Some(cs))[i];
            Text.Truthy(rows[i].communityId) ==>
              forall k :: 0 <= k < |cs| && cs[k].id == rows[i].communityId.value &&
                          (forall j :: k < j < |cs| ==> cs[j].id != cs[k].id) ==>
                s.communities == Some(Community(cs[k].name))
    ensures var s := Join(rows, ps, Some(cs))[i];
            Text.Truthy(rows[i].communityId) && (forall k :: 0 <= k < |cs| ==> cs[k].id != rows[i].communityId.value) ==>
              s.communities == None
  {
    JoinAt(rows, ps, Some(cs), i);
    if Text.Truthy(rows[i].communityId) {
      var ids := CommunityIds(rows);
      assert rows[i].communityId.value in ids;
      CommunitiesMapEntries(ids, cs);
    }
  }

  /** Without profile data every story's `profiles` is `null`. */
  lemma NoProfileData(rows: seq<StoryRow>, cs: Option<seq<CommunityRow>>)
    ensures forall i :: 0 <= i < |rows| ==> Join(rows, None, cs)[i].profiles == None
  {
  }

  /** What the lookups return matters only when they are issued, and their
      errors never matter. */
  lemma LookupAnswersIgnored(stories: Response<seq<StoryRow>>,
                             p1: Response<seq<ProfileRow>>, p2: Response<seq<ProfileRow>>,
                             c1: Response<seq<CommunityRow>>, c2: Response<seq<CommunityRow>>)
    requires p1.data == p2.data || Lookups(stories) == [] ||
             (stories.data.Some? && UserIds(stories.data.value) == [])
    requires c1.data == c2.data || Lookups(stories) == [] ||
             (stories.data.Some? && CommunityIds(stories.data.value) == [])
    ensures LoadStories(stories, p1, c1) == LoadStories(stories, p2, c2)
  {
  }
}

=== FILE: storycard.dfy ===
/** The card of `src/components/CommunityStoryCard.tsx`: the badge colour and
    label of a category, the location line and the author line. */
module StoryCard {
  import opened Wrappers
  import Geo
  import Categories
  import Translation

  /** A story as the card, the gallery and the community map receive it. */
  datatype CommunityStory = CommunityStory(
    id: int,
    title: string,
    community: string,
    province: string,
    author: string,
    description: string,
    image: string,
    category: string,
    date: string,
    coordinates: Geo.Position)

  /** Badge classes of the known categories. */
  const Colors: map<string, string> := map[
    "traditions" := "bg-orange-100 text-orange-800",
    "crafts" := "bg-purple-100 text-purple-800",
    "music" := "bg-blue-100 text-blue-800",
    "agriculture" := "bg-green-100 text-green-800",
    "celebrations" := "bg-pink-100 text-pink-800",
    "traditional_dances" := "bg-red-100 text-red-800",
    "elder_wisdom" := "bg-amber-100 text-amber-800",
    "traditional_clothes" := "bg-violet-100 text-violet-800"
  ]

  /** Badge classes of every other category. */
  const DefaultColor := "bg-gray-100 text-gray-800"

  /** `getCategoryColor`: a known category gets its own colour, any other
      the grey default. */
  function CategoryColor(category: string): (r: string)
    ensures category in Categories.Known <==> r != DefaultColor
    ensures category in Categories.Known ==> r == Colors[category]
  {
    if category in Colors then Colors[category] else DefaultColor
  }

  /** No two known categories share a badge colour. */
  lemma CategoryColorsDistinct(c1: string, c2: string)
    requires c1 in Categories.Known && c2 in Categories.Known && c1 != c2
    ensures CategoryColor(c1) != CategoryColor(c2)
  {
  }

  /** The message key of a category's label. */
  function LabelKey(category: string): string {
    "category." + category
  }

  /** `getCategoryLabel`: `t('category.' + c) || c`. Since `t` of a
      non-empty key is never empty, the `|| c` fallback never fires. */
  function CategoryLabel(cat: Translation.Catalog, lang: Translation.Language, category: string): (r: string)
    ensures r == Translation.Template(cat, lang, LabelKey(category))
    ensures r != ""
  {
    var shown := Translation.Translate(cat, lang, LabelKey(category), None);
    if shown != "" then shown else category
  }

  /** A category the catalog does not know is labelled with its key, never
      with the bare category. */
  lemma UnknownCategoryLabel(cat: Translation.Catalog, lang: Translation.Language, category: string)
    requires !Translation.Defines(cat.TableOf(lang), LabelKey(category))
    requires !Translation.Defines(cat.pt, LabelKey(category))
    requires !Translation.Defines(cat.en, LabelKey(category))
    ensures CategoryLabel(cat, lang, category) == "category." + category
    ensures CategoryLabel(cat, lang, category) != category
  {
    assert |"category." + category| > |category|;
  }

  /** In Portuguese the `traditions` badge reads `Tradições`. */
  lemma TraditionsLabelInPortuguese()
    ensures CategoryLabel(Translation.Translations, Translation.Pt, "traditions") == "Tradições"
  {
    assert LabelKey("traditions") == "category.traditions";
  }

  /** No table of the catalog has a `category.daily_life` entry. */
  lemma DailyLifeKeyMissing()
    ensures LabelKey("daily_life") !in Translation.EnTable
    ensures LabelKey("daily_life") !in Translation.PtTable
    ensures LabelKey("daily_life") !in Translation.MakhuwaTable
    ensures LabelKey("daily_life") !in Translation.SenaTable
    ensures LabelKey("daily_life") !in Translation.ChanganaTable
  {
    assert LabelKey("daily_life") == "category.daily_life";
  }

  /** `daily_life` has no catalog entry, so its badge shows the key
      `category.daily_life` in every language. */
  lemma DailyLifeLabel(lang: Translation.Language)
    ensures CategoryLabel(Translation.Translations, lang, "daily_life") == "category.daily_life"
  {
    DailyLifeKeyMissing();
    Translation.MissingKeyShowsItself(lang, LabelKey("daily_life"));
  }

  /** The location line: shown when the community or the province is
      non-empty; both joined by `, `, or whichever one is present. */
  function LocationLine(community: string, province: string): (r: Option<string>)
    ensures r.None? <==> community == "" && province == ""
    ensures r.Some? ==> r.value != ""
    ensures community != "" && r.Some? ==> community <= r.value
    ensures province != "" && r.Some? ==>
              |province| <= |r.value| && r.value[|r.value| - |province|..] == province
    ensures community != "" && province != "" && r.Some? ==>
              r.value == community + ", " + province
    ensures community != "" && province == "" ==> r == Some(community)
    ensures community == "" && province != "" ==> r == Some(province)
  {
    if community == "" && province == "" then None
    else if community != "" && province != "" then Some(community + ", " + province)
    else if community != "" then Some(community)
    else Some(province)
  }

  /** The author line: shown only for a non-empty author, as
      `t('story.by_author', {author})`. */
  function AuthorLine(cat: Translation.Catalog, lang: Translation.Language, author: string): (r: Option<string>)
    ensures r.None? <==> author == ""
    ensures r.Some? ==>
              r.value == Translation.Translate(cat, lang, "story.by_author", Some([("author", author)]))
  {
    if author == "" then None
    else Some(Translation.Translate(cat, lang, "story.by_author", Some([("author", author)])))
  }

  /** With the application's catalog the author line is the language's word
      for "by" and the name, e.g. `Por Maria`. */
  lemma AuthorLineInCatalog(lang: Translation.Language, author: string)
    requires author != "" && '$' !in author
    ensures AuthorLine(Translation.Translations, lang, author) == Some(Translation.ByPrefix(lang) + author)
  {
    Translation.ByAuthor(lang, author);
  }
}

=== FILE: storymap.dfy ===
/** Map markers of `src/components/InteractiveMap.tsx` and the map
    statistics of `src/pages/MapPage.tsx`: which stories get a marker, where
    it is placed, and how many stories the page reports. */
module StoryMap {
  import opened Wrappers
  import Seqs
  import Text
  import Geo
  import Stories

  /** A marker and the contents of its popup. */
  datatype Marker = Marker(
    id: string,
    position: Geo.Position,
    title: string,
    description: string,
    author: string,
    category: string)

  /** The `center` prop's default: the middle of Mozambique. */
  const DefaultCenter := Geo.Position(-18.2871, 35.2203)

  /** `provinceCoords`: a position for each of the ten provinces. */
  const ProvinceCoords: map<string, Geo.Position> := map[
    "Maputo" := Geo.Position(-25.9664, 32.5832),
    "Gaza" := Geo.Position(-24.0822, 33.6311),
    "Inhambane" := Geo.Position(-23.8650, 35.3833),
    "Sofala" := Geo.Position(-19.8433, 34.8519),
    "Manica" := Geo.Position(-18.9391, 32.8731),
    "Tete" := Geo.Position(-16.1564, 33.5868),
    "Zambézia" := Geo.Position(-17.7208, 36.7920),
    "Nampula" := Geo.Position(-15.1165, 39.2666),
    "Cabo Delgado" := Geo.Position(-11.3408, 40.4467),
    "Niassa" := Geo.Position(-13.2543, 36.5608)
  ]

  /** The filter shared by the map and the statistics: explicit coordinates,
      or both a province and a location. */
  predicate HasLocation(s: Stories.Story) {
    s.row.coordinates.Some? || (Text.Truthy(s.row.province) && Text.Truthy(s.row.location))
  }

  /** Explicit coordinates, else the province's entry, else `center`. */
  function MarkerPosition(s: Stories.Story, center: Geo.Position): (r: Geo.Position)
    ensures s.row.coordinates.Some? ==> r == s.row.coordinates.value
    ensures s.row.coordinates.None? ==> r == center || r in ProvinceCoords.Values
    ensures s.row.coordinates.None? && s.row.province.Some? && s.row.province.value in ProvinceCoords ==>
              r == ProvinceCoords[s.row.province.value]
    ensures s.row.coordinates.None? && !(s.row.province.Some? && s.row.province.value in ProvinceCoords) ==>
              r == center
  {
    if s.row.coordinates.Some? then s.row.coordinates.value
    else
      var province := Text.Or(s.row.province, "");
      if province in ProvinceCoords then ProvinceCoords[province] else center
  }

  /** `story.profiles?.full_name || 'Anonymous'`. */
  function MarkerAuthor(s: Stories.Story): (r: string)
    ensures r != ""
    ensures r == "Anonymous" || (s.profiles.Some? && s.profiles.value.fullName == Some(r))
    ensures s.profiles.Some? && Text.Truthy(s.profiles.value.fullName) ==> r == s.profiles.value.fullName.value
    ensures !(s.profiles.Some? && Text.Truthy(s.profiles.value.fullName)) ==> r == "Anonymous"
  {
    if s.profiles.Some? then Text.Or(s.profiles.value.fullName, "Anonymous") else "Anonymous"
  }

  /** The marker of one located story. */
  function MarkerOf(s: Stories.Story, center: Geo.Position): (m: Marker)
    ensures m.id == s.row.id && m.title == s.row.title
    ensures m.description == s.row.description && m.category == s.row.category
    ensures m.position == MarkerPosition(s, center) && m.author == MarkerAuthor(s)
  {
    Marker(s.row.id, MarkerPosition(s, center), s.row.title, s.row.description, MarkerAuthor(s), s.row.category)
  }

  /** `markers`: one per located story, in story order. */
  function Markers(stories: seq<Stories.Story>, center: Geo.Position): (r: seq<Marker>)
    ensures |r| <= |stories|
    ensures |r| == |Seqs.Filter(stories, HasLocation)|
    ensures forall i :: 0 <= i < |r| ==> r[i] == MarkerOf(Seqs.Filter(stories, HasLocation)[i], center)
  {
    Seqs.Map((s: Stories.Story) => MarkerOf(s, center), Seqs.Filter(stories, HasLocation))
  }

  /** A story is drawn exactly when it has a location; a story without one
      contributes nothing. */
  lemma MarkersSkipUnlocated(stories: seq<Stories.Story>, center: Geo.Position)
    requires forall i :: 0 <= i < |stories| ==> HasLocation(stories[i])
    ensures Markers(stories, center) == Seqs.Map((s: Stories.Story) => MarkerOf(s, center), stories)
  {
    Seqs.FilterAll(stories, HasLocation);
  }

  /** Markers of a concatenation are the markers of each part. */
  lemma MarkersConcat(a: seq<Stories.Story>, b: seq<Stories.Story>, center: Geo.Position)
    ensures |Markers(a + b, center)| == |Markers(a, center)| + |Markers(b, center)|
  {
    Seqs.FilterConcat(a, b, HasLocation);
  }

  /** `propStories || fetchedStories || []`: an array, even an empty one, is
      truthy. */
  function SourceStories(prop: Option<seq<Stories.Story>>, fetched: Option<seq<Stories.Story>>): (r: seq<Stories.Story>)
    ensures prop.Some? ==> r == prop.value
    ensures prop.None? && fetched.Some? ==> r == fetched.value
    ensures prop.None? && fetched.None? ==> r == []
  {
    if prop.Some? then prop.value else fetched.GetOr([])
  }

  /** The markers `InteractiveMap` draws for its props. */
  function MapMarkers(prop: Option<seq<Stories.Story>>, fetched: Option<seq<Stories.Story>>,
                      center: Option<Geo.Position>): (r: seq<Marker>)
    ensures |r| <= |SourceStories(prop, fetched)|
    ensures center.None? ==> r == Markers(SourceStories(prop, fetched), DefaultCenter)
    ensures center.Some? ==> r == Markers(SourceStories(prop, fetched), center.value)
  {
    Markers(SourceStories(prop, fetched), center.GetOr(DefaultCenter))
  }

  // ---- MapPage ----

  /** `storiesWithLocation`. */
  function StoriesWithLocation(stories: Option<seq<Stories.Story>>): (r: seq<Stories.Story>)
    ensures stories.None? ==> r == []
    ensures forall s :: s in r <==> stories.Some? && s in stories.value && HasLocation(s)
  {
    if stories.Some? then Seqs.Filter(stories.value, HasLocation) else []
  }

  /** `stories?.length || 0`. */
  function TotalShown(stories: Option<seq<Stories.Story>>): (n: nat)
    ensures stories.None? ==> n == 0
    ensures stories.Some? ==> n == |stories.value|
  {
    if stories.Some? then |stories.value| else 0
  }

  /** The located count never exceeds the total. */
  lemma LocatedAtMostTotal(stories: Option<seq<Stories.Story>>)
    ensures |StoriesWithLocation(stories)| <= TotalShown(stories)
  {
  }

  /** The page passes its stories to the map, and the map filters with the
      same predicate, so the "stories with location" figure equals the number
      of markers drawn, whatever the center. */
  lemma LocatedCountIsMarkerCount(stories: seq<Stories.Story>, fetched: Option<seq<Stories.Story>>,
                                  center: Option<Geo.Position>)
    ensures |StoriesWithLocation(Some(stories))| == |MapMarkers(Some(stories), fetched, center)|
  {
  }
}

=== FILE: text.dfy ===
/** String primitives of JavaScript that the components rely on: truthiness
    of nullable strings, `indexOf`, `replace` with a string pattern, and the
    decimal form of integers. */
module Text {
  import opened Wrappers

  /** JavaScript truthiness of a nullable string: present and not empty. */
  predicate Truthy(o: Option<string>) {
    o.Some? && o.value != ""
  }

  /** `o || fallback` for a nullable string. */
  function Or(o: Option<string>, fallback: string): (r: string)
    ensures r == fallback || (Truthy(o) && r == o.value)
    ensures Truthy(o) ==> r == o.value
  {
    if Truthy(o) then o.value else fallback
  }

  /** `pat` occurs in `s` starting at index `i`. */
  predicate OccursAt(s: string, pat: string, i: nat) {
    i + |pat| <= |s| && s[i..i + |pat|] == pat
  }

  lemma OccursAtShift(s: string, pat: string, j: nat)
    requires s != []
    ensures OccursAt(s, pat, j + 1) <==> OccursAt(s[1..], pat, j)
  {
    if j + 1 + |pat| <= |s| {
      assert s[j + 1..j + 1 + |pat|] == s[1..][j..j + |pat|];
    }
  }

  /** `s.indexOf(pat)`: the first index at which `pat` occurs, if any. */
  function IndexOf(s: string, pat: string): (r: Option<nat>)
    ensures r.Some? ==> OccursAt(s, pat, r.value)
    ensures r.Some? ==> forall j :: 0 <= j < r.value ==> !OccursAt(s, pat, j)
    ensures r.None? ==> forall j :: 0 <= j <= |s| ==> !OccursAt(s, pat, j)
  {
    assert OccursAt(s, pat, 0) <==> pat <= s;
    if pat <= s then Some(0)
    else if s == [] then None
    else
      match IndexOf(s[1..], pat)
      case None =>
        assert forall j :: 0 <= j <= |s| ==> !OccursAt(s, pat, j) by {
          forall j | 0 < j <= |s| ensures !OccursAt(s, pat, j) {
            OccursAtShift(s, pat, j - 1);
          }
        }
        None
      case Some(k) =>
        assert OccursAt(s, pat, k + 1) by { OccursAtShift(s, pat, k); }
        assert forall j :: 0 <= j < k + 1 ==> !OccursAt(s, pat, j) by {
          forall j | 0 < j < k + 1 ensures !OccursAt(s, pat, j) {
            OccursAtShift(s, pat, j - 1);
          }
        }
        Some(k + 1)
  }

  /** The first occurrence of `pat` in `a + pat + b` is at `|a|` when none
      starts earlier. */
  lemma IndexOfAt(a: string, pat: string, b: string)
    requires forall j :: 0 <= j < |a| ==> !OccursAt(a + pat + b, pat, j)
    ensures IndexOf(a + pat + b, pat) == Some(|a|)
  {
    var s := a + pat + b;
    assert s[|a|..|a| + |pat|] == pat;
    assert OccursAt(s, pat, |a|);
  }

  /** Expansion of the replacement string by `String.prototype.replace` when
      the pattern is a string (GetSubstitution of ECMAScript with no capture
      groups): `$$` is `$`, `$&` the matched text, `` $` `` the text before
      the match, `$'` the text after it; every other `$` is literal. */
  function Expand(repl: string, matched: string, before: string, after: string): (r: string)
    ensures '$' !in repl ==> r == repl
  {
    if repl == [] then []
    else if repl[0] == '$' && |repl| >= 2 && repl[1] in "$&`'" then
      var piece :=
        if repl[1] == '$' then "$"
        else if repl[1] == '&' then matched
        else if repl[1] == '`' then before
        else after;
      piece + Expand(repl[2..], matched, before, after)
    else
      [repl[0]] + Expand(repl[1..], matched, before, after)
  }

  /** `` $` `` stands for the text before the match. */
  lemma ExpandBefore(matched: string, before: string, after: string)
    ensures Expand("$`", matched, before, after) == before
  {
    assert "$`"[2..] == [];
  }

  /** `$'` stands for the text after the match. */
  lemma ExpandAfter(matched: string, before: string, after: string)
    ensures Expand("$'", matched, before, after) == after
  {
    assert "$'"[2..] == [];
  }

  /** A `$` followed by any other character is kept as it is. */
  lemma ExpandLoneDollar(c: char, matched: string, before: string, after: string)
    requires c !in "$&`'"
    ensures Expand(['$', c], matched, before, after) == ['$', c]
  {
    assert ['$', c][1..] == [c];
    assert [c][1..] == [];
  }

  /** A value made literal for `Expand`: every `$` doubled. */
  function Escape(v: string): (r: string)
    ensures |r| >= |v|
    ensures '$' !in v ==> r == v
  {
    if v == [] then []
    else (if v[0] == '$' then "$$" else [v[0]]) + Escape(v[1..])
  }

  /** `$$` stands for a single `$`, so an escaped value expands to itself
      whatever the match and its surroundings. */
  lemma {:induction false} ExpandEscaped(v: string, matched: string, before: string, after: string)
    ensures Expand(Escape(v), matched, before, after) == v
  {
    if v != [] {
      var rest := Escape(v[1..]);
      ExpandEscaped(v[1..], matched, before, after);
      if v[0] == '$' {
        assert Escape(v) == "$$" + rest;
        assert ("$$" + rest)[2..] == rest;
      } else {
        assert Escape(v) == [v[0]] + rest;
        assert ([v[0]] + rest)[1..] == rest;
      }
      assert v == [v[0]] + v[1..];
    }
  }

  /** `s.replace(pat, repl)` with a string `pat`: only the first occurrence
      is replaced; without one, `s` is returned unchanged. */
  function ReplaceFirst(s: string, pat: string, repl: string): (r: string)
    ensures (forall j :: 0 <= j <= |s| ==> !OccursAt(s, pat, j)) ==> r == s
    ensures IndexOf(s, pat).Some? && '$' !in repl ==>
              var i := IndexOf(s, pat).value;
              r == s[..i] + repl + s[i + |pat|..]
  {
    match IndexOf(s, pat)
    case None => s
    case Some(i) =>
      s[..i] + Expand(repl, pat, s[..i], s[i + |pat|..]) + s[i + |pat|..]
  }

  /** Replacing in `a + pat + b`, where `pat` first occurs right after `a`,
      rewrites that occurrence only: every occurrence inside `b` survives. */
  lemma ReplaceFirstAt(a: string, pat: string, b: string, v: string)
    requires forall j :: 0 <= j < |a| ==> !OccursAt(a + pat + b, pat, j)
    requires '$' !in v
    ensures ReplaceFirst(a + pat + b, pat, v) == a + v + b
  {
    var s := a + pat + b;
    IndexOfAt(a, pat, b);
    assert s[..|a|] == a;
    assert s[|a| + |pat|..] == b;
  }

  /** When the first character of `pat` does not occur in `a`, no occurrence
      of `pat` in `a + pat + b` starts inside `a`. */
  lemma FirstCharAbsent(a: string, pat: string, b: string)
    requires |pat| > 0 && pat[0] !in a
    ensures forall j :: 0 <= j < |a| ==> !OccursAt(a + pat + b, pat, j)
  {
  }

  // ---- decimal numerals ----

  predicate IsDigit(c: char) {
    '0' <= c <= '9'
  }

  function DigitChar(d: nat): (c: char)
    requires d < 10
    ensures IsDigit(c)
    ensures c == '0' <==> d == 0
  {
    ('0' as int + d) as char
  }

  function DigitValue(c: char): (d: nat)
    requires IsDigit(c)
    ensures d < 10
  {
    c as int - '0' as int
  }

  /** The decimal digits of `n`, without leading zeros. */
  function NatToString(n: nat): (r: string)
    ensures |r| >= 1
    ensures forall i :: 0 <= i < |r| ==> IsDigit(r[i])
    ensures |r| > 1 ==> r[0] != '0'
    ensures r[0] == '0' <==> n == 0
  {
    if n < 10 then [DigitChar(n)]
    else NatToString(n / 10) + [DigitChar(n % 10)]
  }

  /** `n.toString()` for an integral number. */
  function IntToString(n: int): (r: string)
    ensures |r| >= 1
    ensures n < 0 <==> r[0] == '-'
    ensures n >= 0 ==> forall i :: 0 <= i < |r| ==> IsDigit(r[i])
    ensures n < 0 ==> |r| >= 2 && forall i :: 1 <= i < |r| ==> IsDigit(r[i])
    ensures var digits := if n < 0 then r[1..] else r;
            digits[0] == '0' ==> digits == "0" && n == 0
  {
    if n < 0 then "-" + NatToString(-n) else NatToString(n)
  }

  /** The value of a string of decimal digits. */
  function DigitsValue(s: string): nat
    requires forall i :: 0 <= i < |s| ==> IsDigit(s[i])
  {
    if s == [] then 0
    else 10 * DigitsValue(s[..|s| - 1]) + DigitValue(s[|s| - 1])
  }

  /** Reads back an optional `-` followed by at least one digit. */
  function ParseInt(s: string): Option<int> {
    if |s| >= 2 && s[0] == '-' && forall i :: 1 <= i < |s| ==> IsDigit(s[i]) then
      var v: int := DigitsValue(s[1..]);
      Some(-v)
    else if |s| >= 1 && forall i :: 0 <= i < |s| ==> IsDigit(s[i]) then
      Some(DigitsValue(s))
    else None
  }

  lemma {:induction false} NatToStringRoundTrip(n: nat)
    ensures DigitsValue(NatToString(n)) == n
  {
    if n >= 10 {
      var s := NatToString(n);
      assert s[..|s| - 1] == NatToString(n / 10);
      NatToStringRoundTrip(n / 10);
    }
  }

  /** A `-` followed by digits reads back as the negated digits' value. */
  lemma ParseNegative(digits: string)
    requires |digits| >= 1 && forall i :: 0 <= i < |digits| ==> IsDigit(digits[i])
    ensures ParseInt("-" + digits) == Some(0 - DigitsValue(digits) as int)
  {
    var s := "-" + digits;
    assert s[1..] == digits;
    assert forall i :: 1 <= i < |s| ==> s[i] == digits[i - 1];
  }

  /** Digits alone read back as their value. */
  lemma ParseDigits(digits: string)
    requires |digits| >= 1 && forall i :: 0 <= i < |digits| ==> IsDigit(digits[i])
    ensures ParseInt(digits) == Some(DigitsValue(digits) as int)
  {
    assert digits[0] != '-';
  }

  /** The decimal form reads back as the same number, so distinct ids get
      distinct strings. */
  lemma IntToStringRoundTrip(n: int)
    ensures ParseInt(IntToString(n)) == Some(n)
  {
    if n < 0 {
      var m: nat := -n;
      NatToStringRoundTrip(m);
      ParseNegative(NatToString(m));
    } else {
      NatToStringRoundTrip(n);
      ParseDigits(NatToString(n));
    }
  }
}

=== FILE: translation.dfy ===
/** The translation resolver of `src/contexts/LanguageContext.tsx`: the
    locale catalog, the lookup `t(key, params)` with its fallback chain and
    `{name}` interpolation, and the current-language preference that is
    restored at startup and persisted on change. */
module Translation {
  import opened Wrappers
  import Text

  /** The five UI languages (`type Language`). */
  datatype Language = En | Pt | Makhuwa | Sena | Changana

  /** The code a language is stored under. */
  function Code(l: Language): string {
    match l
    case En => "en"
    case Pt => "pt"
    case Makhuwa => "makhuwa"
    case Sena => "sena"
    case Changana => "changana"
  }

  /** The language whose code is `s`, if any. */
  function ParseLanguage(s: string): (r: Option<Language>)
    ensures r.Some? ==> Code(r.value) == s
    ensures r.None? ==> forall l: Language :: Code(l) != s
  {
    if s == "en" then Some(En)
    else if s == "pt" then Some(Pt)
    else if s == "makhuwa" then Some(Makhuwa)
    else if s == "sena" then Some(Sena)
    else if s == "changana" then Some(Changana)
    else None
  }

  // ---- catalog ----

  /** One locale's messages: key to template. */
  type Table = map<string, string>

  /** The `translations` object: one table per language. */
  datatype Catalog = Catalog(en: Table, pt: Table, makhuwa: Table, sena: Table, changana: Table) {
    function TableOf(l: Language): Table {
      match l
      case En => en
      case Pt => pt
      case Makhuwa => makhuwa
      case Sena => sena
      case Changana => changana
    }
  }

  /** `table[key]` is truthy: present and not the empty string. */
  predicate Defines(table: Table, key: string) {
    key in table && table[key] != ""
  }

  /** The template `t` starts from:
      `translations[language][key] || translations.pt[key] || translations.en[key] || key`. */
  function Template(cat: Catalog, lang: Language, key: string): (r: string)
    ensures Defines(cat.TableOf(lang), key) ==> r == cat.TableOf(lang)[key]
    ensures !Defines(cat.TableOf(lang), key) && Defines(cat.pt, key) ==> r == cat.pt[key]
    ensures !Defines(cat.TableOf(lang), key) && !Defines(cat.pt, key) && Defines(cat.en, key) ==> r == cat.en[key]
    ensures !Defines(cat.TableOf(lang), key) && !Defines(cat.pt, key) && !Defines(cat.en, key) ==> r == key
    ensures key != "" ==> r != ""
  {
    if Defines(cat.TableOf(lang), key) then cat.TableOf(lang)[key]
    else if Defines(cat.pt, key) then cat.pt[key]
    else if Defines(cat.en, key) then cat.en[key]
    else key
  }

  /** Reference reading of a fallback chain: the first table in `chain` that
      defines `key`, else `key` itself. */
  function FirstDefined(chain: seq<Table>, key: string): (r: string)
    ensures r == key || exists i :: 0 <= i < |chain| && Defines(chain[i], key) && r == chain[i][key]
  {
    if chain == [] then key
    else if Defines(chain[0], key) then chain[0][key]
    else FirstDefined(chain[1..], key)
  }

  /** The lookup is the fixed chain: current language, then `pt`, then `en`,
      then the key. */
  lemma {:induction false} TemplateIsChain(cat: Catalog, lang: Language, key: string)
    ensures Template(cat, lang, key) == FirstDefined([cat.TableOf(lang), cat.pt, cat.en], key)
  {
    var chain := [cat.TableOf(lang), cat.pt, cat.en];
    assert chain[1..] == [cat.pt, cat.en];
    assert chain[1..][1..] == [cat.en];
    assert chain[1..][1..][1..] == [];
    assert FirstDefined([], key) == key;
    assert FirstDefined([cat.en], key) == if Defines(cat.en, key) then cat.en[key] else key;
    assert FirstDefined([cat.pt, cat.en], key)
        == if Defines(cat.pt, key) then cat.pt[key] else FirstDefined([cat.en], key);
  }

  // ---- interpolation ----

  /** Named parameters in `Object.keys` enumeration order. */
  type Params = seq<(string, string)>

  /** The placeholder `{name}`. */
  function Token(name: string): (r: string)
    ensures |r| == |name| + 2 && r[0] == '{'
  {
    "{" + name + "}"
  }

  /** The `forEach` over the parameters: each rewrites the first `{name}` of
      the string produced so far. */
  function Interpolate(s: string, params: Params): (r: string)
    ensures params == [] ==> r == s
    decreases |params|
  {
    if params == [] then s
    else Interpolate(Text.ReplaceFirst(s, Token(params[0].0), params[0].1), params[1..])
  }

  /** `t(key, params)`. `None` is an absent `params`. */
  function Translate(cat: Catalog, lang: Language, key: string, params: Option<Params>): (r: string)
    ensures params == None || params == Some([]) ==> r == Template(cat, lang, key)
  {
    var template := Template(cat, lang, key);
    if params.Some? then Interpolate(template, params.value) else template
  }

  /** Parameters whose placeholders do not occur leave the template as it is. */
  lemma {:induction false} InterpolateNoTokens(s: string, params: Params)
    requires forall k, j :: 0 <= k < |params| && 0 <= j <= |s| ==> !Text.OccursAt(s, Token(params[k].0), j)
    ensures Interpolate(s, params) == s
  {
    if params != [] {
      assert Text.ReplaceFirst(s, Token(params[0].0), params[0].1) == s;
      InterpolateNoTokens(s, params[1..]);
    }
  }

  /** Interpolating with `p + q` is interpolating with `p`, then with `q`:
      the parameters act one after the other on the running string. */
  lemma {:induction false} InterpolateConcat(s: string, p: Params, q: Params)
    ensures Interpolate(s, p + q) == Interpolate(Interpolate(s, p), q)
    decreases |p|
  {
    if p == [] {
      assert p + q == q;
    } else {
      assert (p + q)[0] == p[0];
      assert (p + q)[1..] == p[1..] + q;
      InterpolateConcat(Text.ReplaceFirst(s, Token(p[0].0), p[0].1), p[1..], q);
    }
  }

  /** One parameter rewrites only the first occurrence of its placeholder;
      text after it, including later copies of the placeholder, is kept. */
  lemma InterpolateOne(a: string, name: string, b: string, v: string)
    requires forall j :: 0 <= j < |a| ==> !Text.OccursAt(a + Token(name) + b, Token(name), j)
    requires '$' !in v
    ensures Interpolate(a + Token(name) + b, [(name, v)]) == a + v + b
  {
    Text.ReplaceFirstAt(a, Token(name), b, v);
    assert [(name, v)][1..] == [];
  }

  /** A template that is just the placeholder becomes the value. */
  lemma InterpolateWhole(name: string, v: string)
    requires '$' !in v
    ensures Interpolate(Token(name), [(name, v)]) == v
  {
    InterpolateOne("", name, "", v);
    assert "" + Token(name) + "" == Token(name);
    assert "" + v + "" == v;
  }

  /** Substitution runs over the current string, so a value inserted for an
      earlier key is rewritten by a later one... */
  lemma LaterParamRewritesEarlierValue(x: string, y: string, v: string)
    requires '$' !in y && '$' !in v
    ensures Interpolate(Token(x), [(x, Token(y)), (y, v)]) == v
  {
    assert [(x, Token(y)), (y, v)] == [(x, Token(y))] + [(y, v)];
    InterpolateConcat(Token(x), [(x, Token(y))], [(y, v)]);
    assert '$' !in Token(y);
    InterpolateWhole(x, Token(y));
    InterpolateWhole(y, v);
  }

  /** ...but not the other way round: the order of the parameters matters. */
  lemma EarlierParamMissesLaterValue()
    ensures Interpolate("{a}", [("b", "Z"), ("a", "{b}")]) == "{b}"
  {
    assert [("b", "Z"), ("a", "{b}")] == [("b", "Z")] + [("a", "{b}")];
    InterpolateConcat("{a}", [("b", "Z")], [("a", "{b}")]);
    assert Interpolate("{a}", [("b", "Z")]) == "{a}" by {
      forall k, j | 0 <= k < 1 && 0 <= j <= 3 ensures !Text.OccursAt("{a}", Token([("b", "Z")][k].0), j) {
        assert Token("b") == "{b}";
        if j == 0 { assert "{a}"[1] != "{b}"[1]; }
      }
      InterpolateNoTokens("{a}", [("b", "Z")]);
    }
    assert Token("a") == "{a}";
    InterpolateWhole("a", "{b}");
  }

  /** Only the first `{x}` is replaced. */
  lemma OnlyFirstOccurrence()
    ensures Interpolate("{x} and {x}", [("x", "A")]) == "A and {x}"
  {
    var s := "" + Token("x") + " and {x}";
    assert s == "{x} and {x}";
    Text.FirstCharAbsent("", Token("x"), " and {x}");
    InterpolateOne("", "x", " and {x}", "A");
  }

  /** A value is expanded like a `replace` replacement string: `$&` stands for
      the placeholder itself, so the placeholder survives. */
  lemma DollarPatternInValue()
    ensures Interpolate("By {author}", [("author", "$&")]) == "By {author}"
  {
    var s := "By " + Token("author") + "";
    assert s == "By {author}";
    Text.FirstCharAbsent("By ", Token("author"), "");
    Text.IndexOfAt("By ", Token("author"), "");
    assert s[..3] == "By ";
    assert s[3 + 8..] == "";
    assert Text.Expand("$&", "{author}", "By ", "") == "{author}" by {
      assert "$&"[2..] == "";
    }
    assert [("author", "$&")][1..] == [];
  }

  // ---- the catalog of the application ----

  /** A representative part of `translations`: the same keys in every
      language, as in the full catalog, one table per language. */
  const EnTable: Table := map[
    "nav.stories" := "Stories",
    "feed.title" := "Our Community Stories",
    "story.map_desc" := "Showing location of {title} on the map.",
    "story.by_author" := "By {author}",
    "story.from_community" := "from {community}",
    "category.traditions" := "Traditions",
    "category.crafts" := "Crafts",
    "category.music" := "Music",
    "category.agriculture" := "Agriculture",
    "category.celebrations" := "Celebrations",
    "category.traditional_dances" := "Traditional Dances",
    "category.elder_wisdom" := "Elder Wisdom",
    "category.traditional_clothes" := "Traditional Clothes",
    "common.anonymous" := "Anonymous",
    "common.community" := "Community"
  ]

  const PtTable: Table := map[
    "nav.stories" := "Histórias",
    "feed.title" := "Histórias da Nossa Comunidade",
    "story.map_desc" := "A mostrar localização de {title} no mapa.",
    "story.by_author" := "Por {author}",
    "story.from_community" := "de {community}",
    "category.traditions" := "Tradições",
    "category.crafts" := "Artesanato",
    "category.music" := "Música",
    "category.agriculture" := "Agricultura",
    "category.celebrations" := "Celebrações",
    "category.traditional_dances" := "Danças Tradicionais",
    "category.elder_wisdom" := "Sabedoria dos Anciãos",
    "category.traditional_clothes" := "Roupas Tradicionais",
    "common.anonymous" := "Anónimo",
    "common.community" := "Comunidade"
  ]

  const MakhuwaTable: Table := map[
    "nav.stories" := "Mahiku",
    "feed.title" := "Mahiku ya Ekalamu Wethu",
    "story.map_desc" := "Anawoneha mahali pa {title} mapani.",
    "story.by_author" := "Wa {author}",
    "story.from_community" := "wa {community}",
    "category.traditions" := "Ntamaduni",
    "category.crafts" := "Viteho",
    "category.music" := "Nyimbo",
    "category.agriculture" := "Ulimi",
    "category.celebrations" := "Mapampo",
    "category.traditional_dances" := "Ngoma za Ntamaduni",
    "category.elder_wisdom" := "Hekima ya Wakongwe",
    "category.traditional_clothes" := "Nguo za Ntamaduni",
    "common.anonymous" := "Khaani eyitwa",
    "common.community" := "Ekalamu"
  ]

  const SenaTable: Table := map[
    "nav.stories" := "Nkhani",
    "feed.title" := "Nkhani za Anthu Athu",
    "story.map_desc" := "Tikuonetsa malo a {title} pa mapu.",
    "story.by_author" := "Ndi {author}",
    "story.from_community" := "wochokera ku {community}",
    "category.traditions" := "Miyambo",
    "category.crafts" := "Misanga",
    "category.music" := "Nyimbo",
    "category.agriculture" := "Ulimi",
    "category.celebrations" := "Zikondwerero",
    "category.traditional_dances" := "Zovina za Miyambo",
    "category.elder_wisdom" := "Nzeru za Akuluakulu",
    "category.traditional_clothes" := "Zovala za Miyambo",
    "common.anonymous" := "Wosadziwika",
    "common.community" := "Anthu"
  ]

  const ChanganaTable: Table := map[
    "nav.stories" := "Mintsheketo",
    "feed.title" := "Mintsheketo ya Vaaki va Hina",
    "story.map_desc" := "Hi kombisa ndhawu ya {title} eka mapa.",
    "story.by_author" := "Hi {author}",
    "story.from_community" := "wa {community}",
    "category.traditions" := "Mindhavuko",
    "category.crafts" := "Swilo swo endla",
    "category.music" := "Marito",
    "category.agriculture" := "Vurimi",
    "category.celebrations" := "Mintlangu",
    "category.traditional_dances" := "Swinevelo swa Mindhavuko",
    "category.elder_wisdom" := "Vutivi bya Vakulu",
    "category.traditional_clothes" := "Mintshaho ya Mindhavuko",
    "common.anonymous" := "Lowu a nga tivekiki",
    "common.community" := "Vaaki"
  ]

  const Translations: Catalog := Catalog(EnTable, PtTable, MakhuwaTable, SenaTable, ChanganaTable)

  /** The word that precedes the author's name in `story.by_author`. */
  function ByPrefix(l: Language): string {
    match l
    case En => "By "
    case Pt => "Por "
    case Makhuwa => "Wa "
    case Sena => "Ndi "
    case Changana => "Hi "
  }

  /** Every table has a `story.by_author` entry: the word for "by" and the
      `{author}` token. */
  lemma ByAuthorEntry(lang: Language)
    ensures Template(Translations, lang, "story.by_author") == ByPrefix(lang) + Token("author")
  {
    var key := "story.by_author";
    var entry := ByPrefix(lang) + Token("author");
    assert Defines(Translations.TableOf(lang), key) && Translations.TableOf(lang)[key] == entry by {
      match lang {
        case En => EnByAuthor();
        case Pt => PtByAuthor();
        case Makhuwa => MakhuwaByAuthor();
        case Sena => SenaByAuthor();
        case Changana => ChanganaByAuthor();
      }
    }
  }

  lemma EnByAuthor()
    ensures "story.by_author" in EnTable
    ensures EnTable["story.by_author"] == ByPrefix(En) + Token("author")
  {
  }

  lemma PtByAuthor()
    ensures "story.by_author" in PtTable
    ensures PtTable["story.by_author"] == ByPrefix(Pt) + Token("author")
  {
  }

  lemma MakhuwaByAuthor()
    ensures "story.by_author" in MakhuwaTable
    ensures MakhuwaTable["story.by_author"] == ByPrefix(Makhuwa) + Token("author")
  {
  }

  lemma SenaByAuthor()
    ensures "story.by_author" in SenaTable
    ensures SenaTable["story.by_author"] == ByPrefix(Sena) + Token("author")
  {
  }

  lemma ChanganaByAuthor()
    ensures "story.by_author" in ChanganaTable
    ensures ChanganaTable["story.by_author"] == ByPrefix(Changana) + Token("author")
  {
  }

  /** An entry that is some text followed by one placeholder gets the
      parameter's value in place of the placeholder. */
  lemma TranslateTrailingToken(cat: Catalog, lang: Language, key: string, prefix: string, name: string, v: string)
    requires Template(cat, lang, key) == prefix + Token(name)
    requires '{' !in prefix && '$' !in v
    ensures Translate(cat, lang, key, Some([(name, v)])) == prefix + v
  {
    assert prefix + Token(name) == prefix + Token(name) + "";
    Text.FirstCharAbsent(prefix, Token(name), "");
    InterpolateOne(prefix, name, "", v);
    assert prefix + v + "" == prefix + v;
  }

  lemma PrefixNoBrace(lang: Language)
    ensures '{' !in ByPrefix(lang)
  {
  }

  /** `t('story.by_author', {author})` in every language is the language's
      word for "by" followed by the name. */
  lemma ByAuthor(lang: Language, author: string)
    requires '$' !in author
    ensures Translate(Translations, lang, "story.by_author", Some([("author", author)]))
         == ByPrefix(lang) + author
  {
    ByAuthorEntry(lang);
    PrefixNoBrace(lang);
    TranslateTrailingToken(Translations, lang, "story.by_author", ByPrefix(lang), "author", author);
  }

  /** A key that no table defines resolves to itself in every language. */
  lemma MissingKeyShowsItself(lang: Language, key: string)
    requires key !in EnTable && key !in PtTable
    requires key !in MakhuwaTable && key !in SenaTable && key !in ChanganaTable
    ensures Translate(Translations, lang, key, None) == key
  {
    assert !Defines(Translations.TableOf(lang), key);
  }

  /** The same holds with parameters whose placeholders do not occur in the
      key. */
  lemma MissingKeyWithUnusedParams(lang: Language, key: string, params: Params)
    requires key !in EnTable && key !in PtTable
    requires key !in MakhuwaTable && key !in SenaTable && key !in ChanganaTable
    requires forall k, j :: 0 <= k < |params| && 0 <= j <= |key| ==> !Text.OccursAt(key, Token(params[k].0), j)
    ensures Translate(Translations, lang, key, Some(params)) == key
  {
    MissingKeyShowsItself(lang, key);
    InterpolateNoTokens(key, params);
  }

  /** `community.members`, which the community page asks for, is in no
      table of the catalog (the full catalog of the application lacks it
      too). */
  lemma MissingKeys()
    ensures "community.members" !in EnTable && "community.members" !in PtTable
    ensures "community.members" !in MakhuwaTable && "community.members" !in SenaTable
    ensures "community.members" !in ChanganaTable
  {
  }

  // ---- the current language ----

  /** The language the provider starts with. */
  const DefaultLanguage: Language := Pt

  /** The language after the startup effect reads the saved preference
      (`None` when nothing is saved): only one of the five codes is taken. */
  function Restore(saved: Option<string>): (r: Language)
    ensures forall l: Language :: saved == Some(Code(l)) ==> r == l
    ensures r == DefaultLanguage || saved == Some(Code(r))
  {
    if saved.Some? && saved.value != "" && ParseLanguage(saved.value).Some? then
      ParseLanguage(saved.value).value
    else DefaultLanguage
  }

  /** The provider's state: the current language and the stored preference. */
  datatype Preferences = Preferences(language: Language, saved: Option<string>)

  /** The state after the startup effect. */
  function Start(saved: Option<string>): (r: Preferences)
    ensures r.saved == saved
    ensures r.language == Restore(saved)
  {
    Preferences(Restore(saved), saved)
  }

  /** `handleSetLanguage(l)`: the language becomes `l` and `l` is saved, so a
      later startup restores it. */
  function SetLanguage(p: Preferences, l: Language): (r: Preferences)
    ensures r.language == l
    ensures Restore(r.saved) == l
    ensures r.saved == Some(Code(l))
  {
    Preferences(l, Some(Code(l)))
  }
}

=== FILE: wrappers.dfy ===
/** Option and Result, the two failure-compatible wrappers the model uses for
    nullable values (`T | null`, `undefined`) and for thrown errors. */
module Wrappers {

  /** `None` stands for JavaScript's `null` / `undefined`. */
  datatype Option<+T> = None | Some(value: T) {

    /** The value if present, else `default`; `x ?? default`, with `None` as null/undefined. */
    function GetOr(default: T): T {
      match this
      case Some(v) => v
      case None => default
    }
  }

  /** `Failure` stands for an error that the source throws. */
  datatype Result<+R, +E> = Success(value: R) | Failure(error: E)
}
